=== FILE: README.md ===
# Playmap in Dafny

Playmap is a command-line tool for PlayCover keymap files (`.playmap`
property lists). It has two commands, and this project models both of them:

- `layout` rewrites the key codes of a keymap from one keyboard layout
  (QWERTY, AZERTY or QWERTZ) to another. Every key code is stored in the file
  as an `<integer>N</integer>` field. The command looks up the layout's key-code
  table and replaces the fields it lists.
- `fetch` lists the keymaps of an app's bundle ID. The listing comes from the
  GitHub contents API or from a local `file://` directory. On request the
  command also prints the directory's README, and it can download one file to
  a default or a custom location.

Modules:

- `Wrappers`: `Option` and `Result`.
- `Strings`: the Foundation string operations the tool relies on.
  - `hasPrefix` and `hasSuffix`.
  - `replacingOccurrences`: leftmost, non-overlapping replacement.
  - ASCII `lowercased`.
- `Decimal`: how Swift's string interpolation writes a non-negative integer.
- `IntegerTags`: the `<integer>N</integer>` fields.
  - How a field is written for a key code.
  - How one is recognised at the front of a text.
  - `Remap`: the simultaneous substitution of key codes through a table.
- `Layout`: `Sources/layout.swift`.
  - The `Layouts` enum and the two tables.
  - `modifyLayout`, both as written and corrected (see Findings).
  - `Layout.run`.
- `Fetch`: `Sources/fetch.swift`.
  - URL resolution.
  - The local listing.
  - `printFileNames` and `fetchReadme`.
  - The download lookup, its destination and `downloadFile`.
  - `Fetch.run` as a transcript of printed lines.

The outside world is passed in as a parameter: the network, the file system,
standard input and the home directory. `Layout.Run` takes a `readFile`
function. `Fetch.Run` takes an `Environment` with these fields:

- `listDirectory`
- `fetchJSON` and `fetchText`
- `fetchData` and `write`
- the lines of standard input
- the home directory

Swift iterates over a dictionary in an unspecified order. Where that order
matters it is a parameter: any sequence that lists each entry of the table
exactly once (`Layout.IsVisitingOrder`).

One might expect the order in which the table's pairs are replaced not to
matter. The code's fold does depend on it (`Layout.AsWrittenOrderMatters`),
and it merges swapped fields whatever the order (see Findings). The code as
written is `Layout.ModifyLayoutAsWritten`, and `Layout.RunAsWritten` is the
command that saves its result. `Layout.Run` saves the corrected
`Layout.ModifyLayout` instead, and `Layout.RunsDisagreeOnAzerty` shows a file
on which the two differ.

## Model

| member | source | states |
|---|---|---|
| `Strings.ReplaceAllAbsent` | Sources/layout.swift:62-65 | A text in which the pattern never occurs comes back from `replacingOccurrences` unchanged |
| `Strings.ReplaceAllSelf` | Sources/layout.swift:62-65 | Replacing a pattern by itself (the AZERTY `41: 41` entry) leaves every text unchanged |
| `Strings.ReplaceAllPlainPrefix` | Sources/layout.swift:62-65 | Characters before the first occurrence of the pattern are copied as they are |
| `Strings.ReplaceAllLeftmost` | Sources/layout.swift:62-65 | The leftmost occurrence is replaced and the search resumes after it, never inside the replacement |
| `Strings.AsciiLower` | Sources/fetch.swift:154 | Lower-casing keeps the length, lowers each character on its own, and leaves no upper-case ASCII letter |
| `Decimal.NatToString` | Sources/layout.swift:63-64 | The interpolated key code is a non-empty run of digits without a leading zero |
| `Decimal.ValueOfNatToString` | Sources/layout.swift:63-64 | Reading the interpolated numeral back gives the key code |
| `Decimal.NatToStringInjective` | Sources/layout.swift:63-64 | Distinct key codes are written as distinct numerals |
| `IntegerTags.TagAt` | Sources/layout.swift:63-64 | A recognised field really is the tag of the key code reported |
| `IntegerTags.TagAtOfTag` | Sources/layout.swift:63-64 | A text starting with the field of `k` is recognised as key code `k`, so patterns and fields agree |
| `IntegerTags.TagInjective` | Sources/layout.swift:63-64 | Fields of distinct key codes are distinct patterns |
| `IntegerTags.TagOccursInTag` | Sources/layout.swift:62-65 | The pattern of key code `c` occurs in the field of `k` exactly when `c == k`, so a replace-all touches only its own field |
| `IntegerTags.RemapUntouched` | Sources/layout.swift:61-66 | Text holding no field of a table key is left unchanged by the substitution |
| `IntegerTags.RemapWithoutOpen` | Sources/layout.swift:61-66 | Text without `<integer>` is left unchanged by the substitution |
| `IntegerTags.RemapTag` | Sources/layout.swift:61-66 | One field is rewritten to the field of its image when its key code is in the table, and kept otherwise |
| `IntegerTags.RemapSingleIsReplaceAll` | Sources/layout.swift:62-65 | For a table of one entry, the simultaneous substitution is exactly `replacingOccurrences` of that entry's field, on every text |
| `IntegerTags.RemapRoundTrip` | Sources/layout.swift:47-68 | Substituting through a table and then through its inverse restores every text |
| `Layout.ParseLayout` | Sources/layout.swift:4-8 | Parsing an argument gives the layout with that raw value, and fails exactly when no layout has it |
| `Layout.ParseRawValue` | Sources/layout.swift:4-8 | Each layout parses back from its raw value, and no two layouts share one |
| `Layout.SelectTableChoice` | Sources/layout.swift:54-58 | A conversion to QWERTY uses the source layout's reverse table; any other conversion uses the target's forward table, whatever the source |
| `Layout.AzertyToQwertzUsesQwertzTable` | Sources/layout.swift:54-58 | AZERTY to QWERTZ uses the QWERTZ table, which only swaps 28 and 44 |
| `Layout.TablesCoincide` | Sources/layout.swift:10-37 | For AZERTY and for QWERTZ the forward and reverse tables hold the same pairs, and 41 is fixed |
| `Layout.SelectedTableIsInvolution` | Sources/layout.swift:10-37 | Every table the command can select is its own inverse |
| `Layout.SelectedTablesInverse` | Sources/layout.swift:10-37 | The tables for QWERTY to a layout and for that layout to QWERTY undo each other |
| `Layout.VisitingOrderExists` | Sources/layout.swift:61 | Every table has an iteration order that visits each entry exactly once |
| `Layout.ModifyLayoutAsWritten` | Sources/layout.swift:47-68 | The fold as written leaves content without `<integer>` unchanged |
| `Layout.ReplaceInOrderAppend` | Sources/layout.swift:60-66 | The loop is a left fold: visiting `p` then `q` is the fold over `q` of the fold over `p` |
| `Layout.ReplaceInOrderWithoutOpen` | Sources/layout.swift:60-66 | Every pattern begins with `<integer>`, so text without it passes through the loop unchanged |
| `Layout.ReplaceAllOnTag` | Sources/layout.swift:62-65 | One replace-all changes a lone field only when the field is the pattern itself |
| `Layout.ReplaceInOrderOnTag` | Sources/layout.swift:60-66 | On a lone field the loop follows the chain of entries whose key is the field's current value |
| `Layout.SwappedPairCollapses` | Sources/layout.swift:60-66 | When the table holds both `a -> b` and `b -> a`, the loop gives the fields of `a` and `b` the same value |
| `Layout.AsWrittenMergesSwappedFields` | Sources/layout.swift:47-68 | In every iteration order, the code as written turns the field of `k` and the field of its image into the same text |
| `Layout.CorrectedKeepsSwappedFieldsApart` | Sources/layout.swift:10-37 | The corrected conversion swaps the two fields of a table pair: the field of `k` becomes the field of its image and the other way round |
| `Layout.AsWrittenAzertyExample` | Sources/layout.swift:12-16 | QWERTY to AZERTY as written makes the Q field (24) and the A field (0) identical, in every order |
| `Layout.AsWrittenOrderMatters` | Sources/layout.swift:19-22 | As written, a QWERTZ conversion of field 28 yields 28 or 44 depending on the iteration order |
| `Layout.ModifyLayout` | Sources/layout.swift:47-68 | Equal layouts return the content unchanged, and content without `<integer>` is never altered |
| `Layout.SameLayoutIsIdentity` | Sources/layout.swift:50-52 | With equal layouts both versions return the content unchanged |
| `Layout.ModifyLayoutOnField` | Sources/layout.swift:54-66 | A lone field is rewritten through the selected table exactly once, and fields outside the table are kept |
| `Layout.ModifyLayoutRoundTrip` | Sources/layout.swift:47-68 | QWERTY to a layout and back, and a layout to QWERTY and back, both restore the file exactly |
| `Layout.QwertyToAzertyExample` | Sources/layout.swift:12-16 | The Q and W fields of a QWERTY file become the AZERTY A and Z fields |
| `Layout.RunWith` | Sources/layout.swift:88-106 | The file is saved exactly when both paths end in `.playmap` and the input can be read; the saved content is the converted input; each refusal (input extension, output extension, unreadable input) has its own message, checked in that order; a save prints `Layout changed from … to … and saved to …` |
| `Layout.Run` | Sources/layout.swift:88-106 | As `RunWith` for the save condition and the three refusals, and the saved content is the corrected conversion of the input |
| `Layout.RunAsWritten` | Sources/layout.swift:88-106 | As `RunWith` for the save condition and the three refusals, and the saved content is the order-dependent fold of line 103, for the given iteration order |
| `Layout.RunsDisagreeOnAzerty` | Sources/layout.swift:12-16 | A QWERTY file holding only the Q field, converted to AZERTY with the table visited in its written order: the code as written saves the Q field unchanged, the corrected run saves the A field |
| `Layout.AsWrittenKeepsQ` | Sources/layout.swift:60-66 | Visiting the AZERTY table in its written order sends the Q field to 0 and straight back |
| `Layout.RunValidatesBeforeReading` | Sources/layout.swift:88-101 | A path without the extension is refused whatever the file system holds |
| `Fetch.KeymapURL` | Sources/fetch.swift:22-41 | No source gives the default repository's contents URL; a `file://` source gets the bundle ID appended with no separator; any other source is a GitHub repository |
| `Fetch.LocalExactlyForFileSource` | Sources/fetch.swift:24-45 | The resolved URL has the `file` scheme exactly when the source starts with `file://` |
| `Fetch.FileNames` | Sources/fetch.swift:144-150 | The printed names are exactly the `name` values of the entries that carry one, and there are no more of them than entries |
| `Fetch.FileNamesAppend` | Sources/fetch.swift:144-150 | Names are printed in listing order: the names of a concatenation are the names of each part in turn |
| `Fetch.LocalListingNames` | Sources/fetch.swift:50 | A local listing is keyed by file name, so it prints no names unless one of its files is called `name` |
| `Fetch.FirstIndex` | Sources/fetch.swift:78 | The index returned is the first entry that passes the test; none passes when there is no index |
| `Fetch.FetchReadme` | Sources/fetch.swift:152-161 | When some entry is a README, the result is exactly what fetching the first one's download URL gives; there is none when no entry is a README |
| `Fetch.ReadmeCaseInsensitive` | Sources/fetch.swift:154-155 | Names with the same ASCII lower-case form are both READMEs or neither; every spelling of `readme.md`, `README.md` among them, is one; an entry without a download URL never is |
| `Fetch.LookupDownload` | Sources/fetch.swift:77-80 | An empty or missing input is invalid; otherwise the first entry with exactly that name decides: `Found` with its URL when it has one, not found when it has none or no entry has the name |
| `Fetch.FirstNamedEntryDecides` | Sources/fetch.swift:78-79 | The first entry with the name decides, even when it has no download URL |
| `Fetch.JoinPath` | Sources/fetch.swift:82-95 | The joined path is the directory, one `/` and the name: it starts with `dir/`, ends with `/name` and is no longer than both together |
| `Fetch.JoinPathUnique` | Sources/fetch.swift:82-95 | Those three facts fix the path: any string meeting them is the joined path |
| `Fetch.Destination` | Sources/fetch.swift:82-95 | The download goes to `custom/name` for a non-empty custom location, otherwise to `default/name` |
| `Fetch.DownloadFile` | Sources/fetch.swift:170-178 | Only fetched bytes are written, to the destination, and they are written whenever the write succeeds; the success message appears exactly when there were no bytes or the write succeeded, and a failed write prints `Error writing file:` with its description |
| `Fetch.ListFiles` | Sources/fetch.swift:43-61 | A `file` URL lists the local directory and fails exactly when that read fails, with `Error reading local directory:` and the reason; any other URL uses the fetched JSON and fails exactly when the fetch fails, with `Failed to fetch or parse keymaps.` |
| `Fetch.ReadmeLines` | Sources/fetch.swift:66-72 | Without a README the flag prints the not-found line; with one, the heading and the body when the first README's fetch succeeds, and the not-found line when it fails |
| `Fetch.DownloadSection` | Sources/fetch.swift:75-102 | The prompt comes first; an invalid or unknown name ends with its message and writes nothing; for a found file the second line is the location prompt naming the default directory, the fetched bytes go to the destination built from the second input line and are recorded as written exactly when the fetch and the write both succeed, and the last line announces the download exactly when there were no bytes or the write succeeded |
| `Fetch.Report` | Sources/fetch.swift:63-102 | A file is written only when `--download` was given and the requested file was found; under `--download` the written file is the download section's and the output ends with that section's lines |
| `Fetch.Run` | Sources/fetch.swift:21-103 | A `file://` source fails exactly when the directory read fails, any other source exactly when the JSON fetch fails, each with its message; on success the output begins with the header and the names of that listing, and nothing is written without `--download`; a success is the report of the listing the source selects |
| `Fetch.ReportBeginsWithNames` | Sources/fetch.swift:63-64 | Whatever the flags, the output begins with the header line followed by every name in order |
| `Fetch.ReportNamesOnly` | Sources/fetch.swift:63-73 | Without flags only the header and the names are printed, and nothing is written |
| `Fetch.ReportReadmeMissing` | Sources/fetch.swift:63-72 | With `--readme` and no README in the listing, the line after the names is `README.md not found in directory …` |
| `Fetch.ReportReadmeShown` | Sources/fetch.swift:63-72 | With `--readme`, when the first README's fetch gives a body, the two lines after the names are the heading and that body |
| `Fetch.DownloadSectionNotFound` | Sources/fetch.swift:96-98 | A requested name that no entry carries prints `File not found.` and writes nothing |
| `Fetch.ReportDownloadNotFound` | Sources/fetch.swift:75-102 | With `--download`, a name no entry carries makes `File not found.` the last line, and nothing is written |
| `Fetch.RunReadmeExample` | Sources/fetch.swift:63-72 | For a two-entry listing with `--readme`, the output is the header, both names, the README heading and the README body |

## Left out

- The network. `fetchJSON`, `fetchContents` (as `fetchText`) and `fetchData` are fields of `Fetch.Environment`. The GitHub `Accept` header is not modelled. The "Error fetching data" and "Error parsing JSON" messages they print are not modelled.
- JSON decoding. An entry is a map from string keys to string values. A value that is not a string reads as absent, as `as? String` does.
- `URL(string:)` is taken to succeed on every string. So the "Invalid local directory URL." and "Invalid GitHub repository." errors are not modelled, and neither are README or download entries skipped for an unparsable URL.
- `URL.scheme == "file"` is modelled as a `file:` prefix. Percent-encoding and URL normalisation are not modelled.
- `appendingPathComponent` is modelled as joining with `/`. Resolving a relative custom location against the working directory, and path normalisation, are not modelled.
- `lowercased()` lowers ASCII letters only. Unicode case mapping is not modelled.
- Swift compares strings by canonical equivalence, and the model compares code points. This affects `==` on names (`Sources/fetch.swift:78`, `:154`), `hasPrefix` and `hasSuffix` (`Sources/fetch.swift:25`, `Sources/layout.swift:90`, `:95`), and `replacingOccurrences` without the `.literal` option (`Sources/layout.swift:62`). Unicode normalisation is not modelled.
- Layout.Run: saves the corrected conversion, not the order-dependent fold that `Sources/layout.swift:103` writes. The code as written is `Layout.RunAsWritten`, and `Layout.RunsDisagreeOnAzerty` exhibits a file on which the two differ.
- The file system and standard input are parameters. The layout command's `writeFile` ignores write errors, so the model returns the content to be written and does not model a failed write.
- The local directory listing is taken as given, in the order `contentsOfDirectory` returns it.
- ArgumentParser (parsing, help text, `--source` and flag handling) is not part of this model. `Sources/main.swift` and `Package.swift` are not part of this model either.

## Findings

| source | as written | input that shows it | evidently intended | confidence | as-written member | corrected member |
|---|---|---|---|---|---|---|
| Sources/layout.swift:60-66 | The table's pairs are applied one after another, each as a replace-all over the whole content. When the table swaps two key codes, the second replace-all undoes the first. | A QWERTY file holding `<integer>24</integer>` and `<integer>0</integer>`, converted to AZERTY, in any iteration order. Both fields come out as the same field. Likewise QWERTZ field 28 comes out as 28 or 44 depending on the order. | Every field is rewritten exactly once through the table, so Q and A swap. Converting to a layout and back then restores the file. | not executed | `Layout.ModifyLayoutAsWritten`, `Layout.AsWrittenMergesSwappedFields` | `Layout.ModifyLayout`, `Layout.CorrectedKeepsSwappedFieldsApart`, `Layout.ModifyLayoutRoundTrip` |

=== FILE: decimal.dfy ===
/** Decimal rendering of non-negative integers, as Swift string
    interpolation `"\(n)"` produces it, and its inverse. */
module Decimal {

  predicate IsDigit(c: char)
  {
    '0' <= c <= '9'
  }

  predicate AllDigits(s: string)
  {
    forall i :: 0 <= i < |s| ==> IsDigit(s[i])
  }

  function DigitChar(d: nat): (c: char)
    requires d < 10
    ensures IsDigit(c)
  {
    ('0' as int + d) as char
  }

  function DigitValue(c: char): (d: nat)
    requires IsDigit(c)
    ensures d < 10 && DigitChar(d) == c
  {
    c as int - '0' as int
  }

  /** `"\(n)"`: the shortest decimal numeral of `n`. */
  function NatToString(n: nat): (r: string)
    ensures |r| >= 1 && AllDigits(r)
    ensures |r| > 1 ==> r[0] != '0'
    decreases n
  {
    if n < 10 then [DigitChar(n)] else NatToString(n / 10) + [DigitChar(n % 10)]
  }

  /** The number a string of digits denotes. */
  function DigitsValue(s: string): nat
    requires AllDigits(s)
    decreases |s|
  {
    if |s| == 0 then 0 else DigitsValue(s[..|s| - 1]) * 10 + DigitValue(s[|s| - 1])
  }

  /** Reading back a rendered numeral gives the number. */
  lemma {:induction false} ValueOfNatToString(n: nat)
    ensures DigitsValue(NatToString(n)) == n
    decreases n
  {
    if n >= 10 {
      var r := NatToString(n);
      assert r[..|r| - 1] == NatToString(n / 10);
      ValueOfNatToString(n / 10);
    }
  }

  /** Distinct numbers have distinct numerals. */
  lemma NatToStringInjective(a: nat, b: nat)
    ensures NatToString(a) == NatToString(b) ==> a == b
  {
    ValueOfNatToString(a);
    ValueOfNatToString(b);
  }
}

=== FILE: fetch.dfy ===
/** The `fetch` command: where the keymap listing comes from, which names it
    prints, which README it shows and which file it downloads where. The
    network, the file system and standard input are the `Environment`. */
module Fetch {
  import opened Wrappers
  import opened Strings

  /** One decoded directory entry: the String-valued fields of a JSON object
      (a field that is absent or not a String reads as missing). */
  type Entry = map<string, string>

  /** Raw bytes of a download. */
  type Data = seq<bv8>

  const NameKey: string := "name"
  const DownloadURLKey: string := "download_url"
  const FileScheme: string := "file://"
  const DefaultRepository: string := "PlayCover/keymaps"
  const DefaultSubdirectory: string := "Library/Containers/io.playcover.PlayCover/Keymapping"

  // Messages printed by `run` and `downloadFile`.
  const DownloadPrompt: string := "\nEnter the name of the file you want to download:"
  const InvalidNameMessage: string := "Invalid file name."
  const NotFoundMessage: string := "File not found."
  const ReadmeHeading: string := "\nREADME.md contents:\n"
  const FetchFailedMessage: string := "Failed to fetch or parse keymaps."
  const LocalReadFailedPrefix: string := "Error reading local directory: "

  // ---------------------------------------------------------------------
  // Where the listing comes from

  /** The GitHub contents API address of a bundle's keymap directory. */
  function ContentsURL(repository: string, bundleID: string): string
  {
    "https://api.github.com/repos/" + repository + "/contents/keymapping/" + bundleID
  }

  /** The address `run` builds from `--source` and the bundle ID: the
      default repository, a local directory with the ID appended as it is
      (no separator), or another GitHub repository. */
  function KeymapURL(bundleID: string, source: Option<string>): (url: string)
    ensures source.None? ==> url == ContentsURL("PlayCover/keymaps", bundleID)
    ensures source.Some? && StartsWith(source.value, "file://") ==> url == source.value + bundleID
    ensures source.Some? && !StartsWith(source.value, "file://") ==> url == ContentsURL(source.value, bundleID)
  {
    match source
    case None => ContentsURL(DefaultRepository, bundleID)
    case Some(src) => if StartsWith(src, FileScheme) then src + bundleID else ContentsURL(src, bundleID)
  }

  /** `url.scheme == "file"` */
  predicate HasFileScheme(url: string)
  {
    StartsWith(url, "file:")
  }

  /** The listing is read from the local disk exactly when `--source`
      starts with `file://`; every other address is a GitHub one. */
  lemma LocalExactlyForFileSource(bundleID: string, source: Option<string>)
    ensures HasFileScheme(KeymapURL(bundleID, source)) <==>
      source.Some? && StartsWith(source.value, FileScheme)
  {
    match source
    case None => ContentsURLIsRemote(DefaultRepository, bundleID);
    case Some(src) =>
      if StartsWith(src, FileScheme) {
        FileSourceKeepsScheme(src, bundleID);
      } else {
        ContentsURLIsRemote(src, bundleID);
      }
  }

  lemma FileSourceKeepsScheme(src: string, bundleID: string)
    requires StartsWith(src, FileScheme)
    ensures HasFileScheme(src + bundleID)
  {
    assert (src + bundleID)[..5] == src[..5] == src[..7][..5] == "file:";
  }

  lemma ContentsURLIsRemote(repository: string, bundleID: string)
    ensures !HasFileScheme(ContentsURL(repository, bundleID))
  {
    var api := "https://api.github.com/repos/";
    assert ContentsURL(repository, bundleID) == api + (repository + "/contents/keymapping/" + bundleID);
    assert ContentsURL(repository, bundleID)[0] == api[0] == 'h';
  }

  /** A file of a local directory: its last path component and its
      absolute URL string. */
  datatype LocalFile = LocalFile(lastPathComponent: string, absoluteString: string)

  /** `contents.map { [$0.lastPathComponent: $0.absoluteString] }`: local
      entries are keyed by the file name, not by `"name"`. */
  function LocalListing(files: seq<LocalFile>): seq<Entry>
  {
    seq(|files|, i requires 0 <= i < |files| => map[files[i].lastPathComponent := files[i].absoluteString])
  }

  // ---------------------------------------------------------------------
  // printFileNames

  predicate HasName(e: Entry, name: string)
  {
    NameKey in e && e[NameKey] == name
  }

  /** `printFileNames`: the `"name"` of every entry that has one, in order. */
  function FileNames(files: seq<Entry>): (names: seq<string>)
    ensures |names| <= |files|
    ensures forall n :: n in names <==> exists i :: 0 <= i < |files| && HasName(files[i], n)
  {
    if |files| == 0 then []
    else
      var rest := FileNames(files[1..]);
      assert forall i :: 0 <= i < |files| - 1 ==> files[1..][i] == files[i + 1];
      (if NameKey in files[0] then [files[0][NameKey]] else []) + rest
  }

  /** Names come out in listing order: the names of a concatenation are the
      names of each part, one after the other. */
  lemma {:induction false} FileNamesAppend(a: seq<Entry>, b: seq<Entry>)
    ensures FileNames(a + b) == FileNames(a) + FileNames(b)
    decreases |a|
  {
    if |a| == 0 {
      assert a + b == b;
    } else {
      assert (a + b)[1..] == a[1..] + b;
      FileNamesAppend(a[1..], b);
      var head := if NameKey in a[0] then [a[0][NameKey]] else [];
      assert FileNames(a + b) == head + FileNames(a[1..] + b);
      assert FileNames(a) == head + FileNames(a[1..]);
      AppendAssoc(head, FileNames(a[1..]), FileNames(b));
    }
  }

  /** A local directory prints no names, unless one of its files is itself
      called `name`, whose absolute URL is then printed. */
  lemma {:induction false} LocalListingNames(files: seq<LocalFile>)
    ensures (forall i :: 0 <= i < |files| ==> files[i].lastPathComponent != NameKey) ==>
      FileNames(LocalListing(files)) == []
    ensures forall i :: 0 <= i < |files| && files[i].lastPathComponent == NameKey ==>
      files[i].absoluteString in FileNames(LocalListing(files))
    decreases |files|
  {
    var entries := LocalListing(files);
    if |files| > 0 {
      assert LocalListing(files[1..]) == entries[1..];
      LocalListingNames(files[1..]);
      if files[0].lastPathComponent != NameKey {
        assert NameKey !in entries[0];
      }
    }
    forall i | 0 <= i < |files| && files[i].lastPathComponent == NameKey
      ensures files[i].absoluteString in FileNames(entries)
    {
      assert HasName(entries[i], files[i].absoluteString);
    }
  }

  // ---------------------------------------------------------------------
  // Selecting an entry

  /** `files.first(where: p)` as an index. */
  function FirstIndex(files: seq<Entry>, p: Entry -> bool): (r: Option<nat>)
    ensures r.Some? ==> r.value < |files| && p(files[r.value])
    ensures r.Some? ==> forall j :: 0 <= j < r.value ==> !p(files[j])
    ensures r.None? ==> forall j :: 0 <= j < |files| ==> !p(files[j])
  {
    if |files| == 0 then None
    else if p(files[0]) then Some(0)
    else
      match FirstIndex(files[1..], p)
      case None => None
      case Some(i) => Some(i + 1)
  }

  /** The test `fetchReadme` applies to each entry: named `readme.md` in any
      letter case, and carrying a download URL. */
  predicate IsReadme(e: Entry)
  {
    NameKey in e && AsciiLower(e[NameKey]) == "readme.md" && DownloadURLKey in e
  }

  /** `fetchReadme`: the body fetched from the first README entry's download
      URL. `None` when there is no such entry, and also when that one fetch
      fails: later entries are not tried. */
  function FetchReadme(files: seq<Entry>, fetchText: string -> Option<string>): (r: Option<string>)
    ensures r.Some? ==> (exists i :: 0 <= i < |files| && IsReadme(files[i])
                          && (forall j :: 0 <= j < i ==> !IsReadme(files[j]))
                          && fetchText(files[i][DownloadURLKey]) == r)
    ensures (forall i :: 0 <= i < |files| ==> !IsReadme(files[i])) ==> r.None?
    ensures forall i ::
              0 <= i < |files| && IsReadme(files[i]) && (forall j :: 0 <= j < i ==> !IsReadme(files[j]))
              ==> r == fetchText(files[i][DownloadURLKey])
  {
    match FirstIndex(files, IsReadme)
    case None => None
    case Some(i) => fetchText(files[i][DownloadURLKey])
  }

  /** Lower-casing `README.md` gives `readme.md`. */
  lemma LowerReadme()
    ensures AsciiLower("README.md") == "readme.md"
  {
    ReadmeLowered(AsciiLower("README.md"));
  }

  lemma ReadmeLowered(r: string)
    requires |r| == 9 && forall i :: 0 <= i < 9 ==> r[i] == AsciiLowerChar("README.md"[i])
    ensures r == "readme.md"
  {
    assert r[0] == 'r' && r[1] == 'e' && r[2] == 'a' && r[3] == 'd' && r[4] == 'm';
    assert r[5] == 'e' && r[6] == '.' && r[7] == 'm' && r[8] == 'd';
  }

  /** The README test ignores letter case: two names with the same ASCII
      lower-case form are both READMEs or neither, every spelling of
      `readme.md` (`README.md` among them) is one, and no entry without a
      download URL is. */
  lemma ReadmeCaseInsensitive(a: string, b: string, url: string)
    ensures AsciiLower(a) == AsciiLower(b) ==>
      (IsReadme(map[NameKey := a, DownloadURLKey := url]) <==> IsReadme(map[NameKey := b, DownloadURLKey := url]))
    ensures AsciiLower(a) == "readme.md" ==> IsReadme(map[NameKey := a, DownloadURLKey := url])
    ensures IsReadme(map[NameKey := "README.md", DownloadURLKey := url])
    ensures !IsReadme(map[NameKey := a])
    ensures forall e: Entry :: DownloadURLKey !in e ==> !IsReadme(e)
  {
    LowerReadme();
  }

  /** The outcome of asking which file to download. */
  datatype DownloadTarget = InvalidFileName | FileNotFound | Found(fileName: string, url: string)

  /** `readLine()`: the next line of standard input, `nil` past its end. */
  function ReadLine(stdin: seq<string>, k: nat): Option<string>
  {
    if k < |stdin| then Some(stdin[k]) else None
  }

  /** The lookup in `run`: an empty or missing name is invalid; otherwise the
      first entry with exactly that name decides, and it must carry a
      download URL. */
  function LookupDownload(files: seq<Entry>, input: Option<string>): (r: DownloadTarget)
    ensures r == InvalidFileName <==> input.None? || input.value == ""
    ensures r.Found? ==> r.fileName == input.value
    ensures r.Found? ==>
      exists i :: 0 <= i < |files|
        && HasName(files[i], r.fileName)
        && (forall j :: 0 <= j < i ==> !HasName(files[j], r.fileName))
        && DownloadURLKey in files[i] && files[i][DownloadURLKey] == r.url
    ensures input.Some? && input.value != "" && (forall i :: 0 <= i < |files| ==> !HasName(files[i], input.value))
      ==> r == FileNotFound
    ensures input.Some? && input.value != "" ==>
      forall i :: 0 <= i < |files| && HasName(files[i], input.value)
                  && (forall j :: 0 <= j < i ==> !HasName(files[j], input.value)) ==>
        r == (if DownloadURLKey in files[i] then Found(input.value, files[i][DownloadURLKey]) else FileNotFound)
  {
    match input
    case None => InvalidFileName
    case Some(name) =>
      if name == "" then InvalidFileName
      else
        match FirstIndex(files, e => HasName(e, name))
        case None => FileNotFound
        case Some(i) =>
          if DownloadURLKey in files[i] then Found(name, files[i][DownloadURLKey]) else FileNotFound
  }

  /** The first entry with the name decides even when it has no download URL
      and a later entry with the same name has one. */
  lemma FirstNamedEntryDecides(files: seq<Entry>, name: string, i: nat)
    requires name != "" && i < |files| && HasName(files[i], name) && DownloadURLKey !in files[i]
    requires forall j :: 0 <= j < i ==> !HasName(files[j], name)
    ensures LookupDownload(files, Some(name)) == FileNotFound
  {
    assert FirstIndex(files, e => HasName(e, name)) == Some(i);
  }

  /** `dir.appendingPathComponent(name).path`: the directory, one separator
      and the name, nothing else. */
  function JoinPath(dir: string, name: string): (path: string)
    ensures |path| == |dir| + 1 + |name|
    ensures StartsWith(path, dir + "/") && EndsWith(path, "/" + name)
  {
    var path := dir + "/" + name;
    assert path[|path| - |"/" + name|..] == "/" + name;
    assert path[..|dir + "/"|] == dir + "/";
    path
  }

  /** A string is fixed by a prefix and a suffix that meet at one shared
      separator and fill its length: `JoinPath` has no other result. */
  lemma JoinPathUnique(dir: string, name: string, path: string)
    requires |path| == |dir| + 1 + |name|
    requires StartsWith(path, dir + "/") && EndsWith(path, "/" + name)
    ensures path == JoinPath(dir, name)
  {
    var j := JoinPath(dir, name);
    forall k | 0 <= k < |path|
      ensures path[k] == j[k]
    {
      if k <= |dir| {
        assert path[k] == path[..|dir + "/"|][k] == (dir + "/")[k];
        assert j[k] == j[..|dir + "/"|][k] == (dir + "/")[k];
      } else {
        var t := k - |dir|;
        assert path[k] == path[|path| - |"/" + name|..][t] == ("/" + name)[t];
        assert j[k] == j[|j| - |"/" + name|..][t] == ("/" + name)[t];
      }
    }
  }

  /** Where the download goes: under a non-empty custom location, otherwise
      under the default directory; always named after the requested file. */
  function Destination(customInput: Option<string>, defaultDirectory: string, fileName: string): (path: string)
    ensures EndsWith(path, "/" + fileName)
    ensures customInput.Some? && customInput.value != "" ==>
      StartsWith(path, customInput.value + "/") && |path| == |customInput.value| + 1 + |fileName|
    ensures !(customInput.Some? && customInput.value != "") ==>
      StartsWith(path, defaultDirectory + "/") && |path| == |defaultDirectory| + 1 + |fileName|
  {
    var dir := if customInput.Some? && customInput.value != "" then customInput.value else defaultDirectory;
    JoinPath(dir, fileName)
  }

  /** What a write of the downloaded bytes reported. */
  datatype WriteOutcome = Written | WriteFailed(description: string)

  /** The printed message and the file written, if any. */
  datatype DownloadReport = DownloadReport(message: string, written: Option<(string, Data)>)

  /** `downloadFile`: when the fetch returns no data the optional-chained
      write is skipped without an error, so success is still announced. */
  function DownloadFile(data: Option<Data>, destination: string,
                        write: (string, Data) -> WriteOutcome): (r: DownloadReport)
    ensures r.written.Some? ==> data.Some? && r.written.value == (destination, data.value)
    ensures data.None? ==> r.written.None?
    ensures r.message == "File downloaded to " + destination <==>
      data.None? || write(destination, data.value) == Written
    ensures data.Some? && write(destination, data.value) == Written ==>
      r.written == Some((destination, data.value))
    ensures data.Some? && write(destination, data.value).WriteFailed? ==>
      r.written.None? && r.message == "Error writing file: " + write(destination, data.value).description
  {
    match data
    case None => DownloadReport("File downloaded to " + destination, None)
    case Some(bytes) =>
      match write(destination, bytes)
      case Written => DownloadReport("File downloaded to " + destination, Some((destination, bytes)))
      case WriteFailed(e) =>
        var msg := "Error writing file: " + e;
        assert msg[0] != ("File downloaded to " + destination)[0];
        DownloadReport(msg, None)
  }

  // ---------------------------------------------------------------------
  // Fetch.run

  /** Everything `run` asks of the outside world. */
  datatype Environment = Environment(
    listDirectory: string -> Result<seq<LocalFile>, string>,
    fetchJSON: string -> Option<seq<Entry>>,
    fetchText: string -> Option<string>,
    fetchData: string -> Option<Data>,
    write: (string, Data) -> WriteOutcome,
    stdin: seq<string>,
    home: string)

  /** The lines printed, in order, and the file written, if any. */
  datatype Transcript = Transcript(lines: seq<string>, written: Option<(string, Data)>)

  /** The directory listing, or the message of the error `run` throws. */
  function ListFiles(url: string, env: Environment): (r: Result<seq<Entry>, string>)
    ensures HasFileScheme(url) ==> (r.Success? <==> env.listDirectory(url).Success?)
    ensures HasFileScheme(url) && env.listDirectory(url).Success? ==>
      r == Success(LocalListing(env.listDirectory(url).value))
    ensures HasFileScheme(url) && r.Failure? ==>
      r.error == LocalReadFailedPrefix + env.listDirectory(url).error
    ensures !HasFileScheme(url) ==> (r.Success? <==> env.fetchJSON(url).Some?)
    ensures !HasFileScheme(url) && r.Success? ==> r.value == env.fetchJSON(url).value
    ensures !HasFileScheme(url) && r.Failure? ==> r.error == FetchFailedMessage
  {
    if HasFileScheme(url) then
      match env.listDirectory(url)
      case Success(fs) => Success(LocalListing(fs))
      case Failure(e) => Failure(LocalReadFailedPrefix + e)
    else
      match env.fetchJSON(url)
      case Some(js) => Success(js)
      case None => Failure(FetchFailedMessage)
  }

  /** The line printed when no README can be shown. */
  function ReadmeMissingLine(bundleID: string): string
  {
    "README.md not found in directory " + bundleID + "."
  }

  /** The lines the `--readme` flag adds: the heading and the body of the
      first README when its fetch succeeds, and the not-found line both when
      there is no README and when that fetch fails. */
  function ReadmeLines(files: seq<Entry>, bundleID: string, fetchText: string -> Option<string>): (lines: seq<string>)
    ensures (forall i :: 0 <= i < |files| ==> !IsReadme(files[i])) ==> lines == [ReadmeMissingLine(bundleID)]
    ensures forall i ::
              0 <= i < |files| && IsReadme(files[i]) && (forall j :: 0 <= j < i ==> !IsReadme(files[j]))
              ==> lines == (match fetchText(files[i][DownloadURLKey])
                            case Some(body) => [ReadmeHeading, body]
                            case None => [ReadmeMissingLine(bundleID)])
  {
    match FetchReadme(files, fetchText)
    case Some(body) => [ReadmeHeading, body]
    case None => [ReadmeMissingLine(bundleID)]
  }

  /** The second prompt, naming the default download directory. */
  function LocationPrompt(defaultDirectory: string): string
  {
    "Enter custom download location or press Enter to use default location (" + defaultDirectory + "):"
  }

  /** What the `--download` flag adds: the prompts, the outcome, the file. */
  function DownloadSection(files: seq<Entry>, env: Environment): (t: Transcript)
    ensures |t.lines| >= 2 && t.lines[0] == DownloadPrompt
    ensures t.written.Some? ==> LookupDownload(files, ReadLine(env.stdin, 0)).Found?
    ensures LookupDownload(files, ReadLine(env.stdin, 0)) == InvalidFileName ==>
      t.written.None? && Last(t.lines) == InvalidNameMessage
    ensures LookupDownload(files, ReadLine(env.stdin, 0)) == FileNotFound ==>
      t.written.None? && Last(t.lines) == NotFoundMessage
    ensures var target := LookupDownload(files, ReadLine(env.stdin, 0));
      target.Found? ==>
        var destination := Destination(ReadLine(env.stdin, 1), JoinPath(env.home, DefaultSubdirectory), target.fileName);
        && (t.written.Some? ==> env.fetchData(target.url).Some?
                                && t.written.value == (destination, env.fetchData(target.url).value))
        && (env.fetchData(target.url).Some? && env.write(destination, env.fetchData(target.url).value) == Written ==>
              t.written.Some?)
        && (t.written.Some? <==>
              env.fetchData(target.url).Some? && env.write(destination, env.fetchData(target.url).value) == Written)
        && |t.lines| == 3 && t.lines[1] == LocationPrompt(JoinPath(env.home, DefaultSubdirectory))
        && (Last(t.lines) == "File downloaded to " + destination <==>
              env.fetchData(target.url).None? || env.write(destination, env.fetchData(target.url).value) == Written)
  {
    match LookupDownload(files, ReadLine(env.stdin, 0))
    case InvalidFileName => Transcript([DownloadPrompt, InvalidNameMessage], None)
    case FileNotFound => Transcript([DownloadPrompt, NotFoundMessage], None)
    case Found(name, url) =>
      var defaultDirectory := JoinPath(env.home, DefaultSubdirectory);
      var destination := Destination(ReadLine(env.stdin, 1), defaultDirectory, name);
      var report := DownloadFile(env.fetchData(url), destination, env.write);
      Transcript(
        [DownloadPrompt, LocationPrompt(defaultDirectory), report.message],
        report.written)
  }

  /** The header line printed before the names. */
  function Header(bundleID: string): string
  {
    "Contents of directory " + bundleID + ":"
  }

  /** What `run` prints once the listing is in hand: the header and the
      names, then the README section when asked for, then the download
      section when asked for. */
  function Report(bundleID: string, files: seq<Entry>, readme: bool, download: bool,
                  env: Environment): (t: Transcript)
    ensures t.written.Some? ==> download && LookupDownload(files, ReadLine(env.stdin, 0)).Found?
    ensures !download ==> t.written.None?
    ensures download ==> t.written == DownloadSection(files, env).written
    ensures download ==>
      var section := DownloadSection(files, env).lines;
      |t.lines| >= |section| && t.lines[|t.lines| - |section|..] == section
  {
    var readmePart := if readme then ReadmeLines(files, bundleID, env.fetchText) else [];
    var downloadPart := if download then DownloadSection(files, env) else Transcript([], None);
    Transcript([Header(bundleID)] + FileNames(files) + readmePart + downloadPart.lines,
               downloadPart.written)
  }

  /** `Fetch.run`: resolve the address and list the directory; a failure
      throws before anything is printed, otherwise the report is printed. */
  function Run(bundleID: string, readme: bool, download: bool, source: Option<string>,
               env: Environment): (r: Result<Transcript, string>)
    ensures var url := KeymapURL(bundleID, source);
      && (IsFileSource(source) ==> (r.Failure? <==> env.listDirectory(url).Failure?))
      && (IsFileSource(source) && r.Failure? ==> r.error == LocalReadFailedPrefix + env.listDirectory(url).error)
      && (!IsFileSource(source) ==> (r.Failure? <==> env.fetchJSON(url).None?))
      && (!IsFileSource(source) && r.Failure? ==> r.error == FetchFailedMessage)
    ensures r.Success? ==>
      var url := KeymapURL(bundleID, source);
      var names := FileNames(if IsFileSource(source) then LocalListing(env.listDirectory(url).value)
                             else env.fetchJSON(url).value);
      |r.value.lines| >= 1 + |names| && r.value.lines[..1 + |names|] == [Header(bundleID)] + names
    ensures r.Success? && !download ==> r.value.written.None?
    ensures r.Success? ==>
      var url := KeymapURL(bundleID, source);
      r.value == Report(bundleID, if IsFileSource(source) then LocalListing(env.listDirectory(url).value)
                                  else env.fetchJSON(url).value, readme, download, env)
  {
    var url := KeymapURL(bundleID, source);
    LocalExactlyForFileSource(bundleID, source);
    match ListFiles(url, env)
    case Failure(e) => Failure(e)
    case Success(files) =>
      ReportBeginsWithNames(bundleID, files, readme, download, env);
      Success(Report(bundleID, files, readme, download, env))
  }

  /** `--source` names a local directory. */
  predicate IsFileSource(source: Option<string>)
  {
    source.Some? && StartsWith(source.value, FileScheme)
  }

  lemma PrefixOfAppend<T>(a: seq<T>, b: seq<T>, c: seq<T>)
    ensures |a + b + c| >= |a| && (a + b + c)[..|a|] == a
  {
    assert a + b + c == a + (b + c);
  }

  /** The last element of a non-empty sequence. */
  function Last<T>(s: seq<T>): T
    requires |s| > 0
  {
    s[|s| - 1]
  }

  lemma LastOfAppend<T>(a: seq<T>, b: seq<T>, c: seq<T>)
    requires |c| > 0
    ensures |a + b + c| > 0 && Last(a + b + c) == Last(c)
  {
  }

  /** Whatever the flags, the report first prints the header and then every
      name of the listing, in order. */
  lemma ReportBeginsWithNames(bundleID: string, files: seq<Entry>, readme: bool, download: bool,
                              env: Environment)
    ensures var names := FileNames(files);
      var lines := Report(bundleID, files, readme, download, env).lines;
      |lines| >= 1 + |names| &&
      lines[..1 + |names|] == [Header(bundleID)] + names
  {
    var header := [Header(bundleID)] + FileNames(files);
    var readmePart := if readme then ReadmeLines(files, bundleID, env.fetchText) else [];
    var downloadPart := if download then DownloadSection(files, env) else Transcript([], None);
    PrefixOfAppend(header, readmePart, downloadPart.lines);
  }

  /** Without `--readme` and `--download` only the header and the names are
      printed, and nothing is written. */
  lemma ReportNamesOnly(bundleID: string, files: seq<Entry>, env: Environment)
    ensures Report(bundleID, files, false, false, env) ==
      Transcript(["Contents of directory " + bundleID + ":"] + FileNames(files), None)
  {
    var header := [Header(bundleID)] + FileNames(files);
    assert header + [] + [] == header;
  }

  /** With `--readme` and no README in the listing, the line after the
      names says so. */
  lemma ReportReadmeMissing(bundleID: string, files: seq<Entry>, download: bool, env: Environment)
    requires forall i :: 0 <= i < |files| ==> !IsReadme(files[i])
    ensures var names := FileNames(files);
      var lines := Report(bundleID, files, true, download, env).lines;
      |lines| > 1 + |names| && lines[1 + |names|] == ReadmeMissingLine(bundleID)
  {
    var header := [Header(bundleID)] + FileNames(files);
    var readmePart := ReadmeLines(files, bundleID, env.fetchText);
    var downloadPart := if download then DownloadSection(files, env) else Transcript([], None);
    AfterPrefixOfAppend(header, readmePart, downloadPart.lines);
  }

  /** With `--readme`, when the first README's fetch gives `body`, the two
      lines after the names are the heading and `body`. */
  lemma ReportReadmeShown(bundleID: string, files: seq<Entry>, download: bool, env: Environment, i: nat, body: string)
    requires i < |files| && IsReadme(files[i]) && forall j :: 0 <= j < i ==> !IsReadme(files[j])
    requires env.fetchText(files[i][DownloadURLKey]) == Some(body)
    ensures var names := FileNames(files);
      var lines := Report(bundleID, files, true, download, env).lines;
      |lines| > 2 + |names| && lines[1 + |names|] == ReadmeHeading && lines[2 + |names|] == body
  {
    var header := [Header(bundleID)] + FileNames(files);
    var readmePart := ReadmeLines(files, bundleID, env.fetchText);
    assert readmePart == [ReadmeHeading, body];
    var downloadPart := if download then DownloadSection(files, env) else Transcript([], None);
    AfterPrefixOfAppend(header, readmePart, downloadPart.lines);
  }

  lemma AfterPrefixOfAppend<T>(a: seq<T>, b: seq<T>, c: seq<T>)
    ensures |a + b + c| >= |a| + |b|
    ensures forall k :: 0 <= k < |b| ==> (a + b + c)[|a| + k] == b[k]
  {
  }

  /** A name no entry carries leads to "File not found." and no write. */
  lemma DownloadSectionNotFound(files: seq<Entry>, env: Environment)
    requires |env.stdin| > 0 && env.stdin[0] != ""
    requires forall e :: e in files ==> !HasName(e, env.stdin[0])
    ensures DownloadSection(files, env).written.None?
    ensures |DownloadSection(files, env).lines| > 0 && Last(DownloadSection(files, env).lines) == NotFoundMessage
  {
    assert forall i :: 0 <= i < |files| ==> !HasName(files[i], env.stdin[0]) by {
      forall i | 0 <= i < |files|
        ensures !HasName(files[i], env.stdin[0])
      {
        assert files[i] in files;
      }
    }
    assert LookupDownload(files, ReadLine(env.stdin, 0)) == FileNotFound;
  }

  /** Asking for a file no entry is named after prints "File not found."
      last and writes nothing. */
  lemma ReportDownloadNotFound(bundleID: string, files: seq<Entry>, readme: bool, env: Environment)
    requires |env.stdin| > 0 && env.stdin[0] != ""
    requires forall e :: e in files ==> !HasName(e, env.stdin[0])
    ensures Report(bundleID, files, readme, true, env).written.None?
    ensures |Report(bundleID, files, readme, true, env).lines| > 0
    ensures Last(Report(bundleID, files, readme, true, env).lines) == NotFoundMessage
  {
    DownloadSectionNotFound(files, env);
    var ds := DownloadSection(files, env);
    var front := [Header(bundleID)] + FileNames(files);
    var rp := if readme then ReadmeLines(files, bundleID, env.fetchText) else [];
    LastOfAppend(front, rp, ds.lines);
    var lines := front + rp + ds.lines;
    assert Report(bundleID, files, readme, true, env) == Transcript(lines, ds.written);
    assert Last(lines) == NotFoundMessage;
  }

  /** The two-entry listing of the examples below. */
  function ExampleListing(): seq<Entry>
  {
    [map[NameKey := "A.playmap", DownloadURLKey := "http://x/A.playmap"],
     map[NameKey := "README.md", DownloadURLKey := "http://x/README.md"]]
  }

  /** In that listing only the second entry passes the README test. */
  lemma PlaymapNotReadme()
    ensures AsciiLower("A.playmap") != "readme.md"
  {
    assert AsciiLower("A.playmap")[0] == 'a';
  }

  lemma ExampleListingReadme()
    ensures !IsReadme(ExampleListing()[0]) && IsReadme(ExampleListing()[1])
  {
    ExampleFirstNotReadme();
    ExampleSecondReadme();
  }

  lemma ExampleFirstNotReadme()
    ensures !IsReadme(ExampleListing()[0])
  {
    PlaymapNotReadme();
  }

  lemma ExampleSecondReadme()
    ensures IsReadme(ExampleListing()[1])
  {
    LowerReadme();
  }

  /** In that listing both names are printed. */
  lemma ExampleListingNames()
    ensures FileNames(ExampleListing()) == ["A.playmap", "README.md"]
  {
    var files := ExampleListing();
    assert files[1..][1..] == [];
  }

  /** In that listing the README is the second entry. */
  lemma ExampleListingReadmeBody(fetchText: string -> Option<string>)
    ensures FetchReadme(ExampleListing(), fetchText) == fetchText("http://x/README.md")
  {
    var files := ExampleListing();
    ExampleListingReadme();
    var r := FirstIndex(files, IsReadme);
    assert r == Some(1);
  }

  /** The lines of the example, assembled. */
  lemma ExampleTranscriptLines(first: string, header: seq<string>, readmeLines: seq<string>)
    requires header == [first] + ["A.playmap", "README.md"]
    requires readmeLines == [ReadmeHeading, "body"]
    ensures header + readmeLines + [] == [first, "A.playmap", "README.md", ReadmeHeading, "body"]
  {
  }

  /** Fetching that listing with `--readme` prints both names, then the
      README body. */
  lemma ReportReadmeExample(bundleID: string, env: Environment)
    requires env.fetchText("http://x/README.md") == Some("body")
    ensures Report(bundleID, ExampleListing(), true, false, env) == Transcript(
      ["Contents of directory " + bundleID + ":", "A.playmap", "README.md", ReadmeHeading, "body"],
      None)
  {
    var files := ExampleListing();
    ExampleListingNames();
    ExampleListingReadmeBody(env.fetchText);
    var first := Header(bundleID);
    var header := [first] + FileNames(files);
    var readmeLines := ReadmeLines(files, bundleID, env.fetchText);
    assert readmeLines == [ReadmeHeading, "body"];
    assert header == [first] + ["A.playmap", "README.md"];
    ExampleTranscriptLines(first, header, readmeLines);
  }

  lemma RunReadmeExample(bundleID: string, env: Environment)
    requires env.fetchJSON(KeymapURL(bundleID, None)) == Some(ExampleListing())
    requires env.fetchText("http://x/README.md") == Some("body")
    ensures Run(bundleID, true, false, None, env) == Success(Transcript(
      ["Contents of directory " + bundleID + ":", "A.playmap", "README.md", ReadmeHeading, "body"],
      None))
  {
    LocalExactlyForFileSource(bundleID, None);
    assert ListFiles(KeymapURL(bundleID, None), env) == Success(ExampleListing());
    ReportReadmeExample(bundleID, env);
  }
}

=== FILE: integer_tags.dfy ===
/** The `<integer>N</integer>` fields of a Playmap property list: how one is
    written for a key code, how one is recognised in text, and the
    simultaneous substitution of key codes through a table. */
module IntegerTags {
  import opened Wrappers
  import opened Strings
  import opened Decimal

  const Open: string := "<integer>"
  const Close: string := "</integer>"

  /** `"<integer>\(k)</integer>"` */
  function Tag(k: nat): string
  {
    Open + NatToString(k) + Close
  }

  /** Positions in `Open` and `Close` that hold a `<`. */
  lemma OpenCloseShape()
    ensures |Open| == 9 && |Close| == 10
    ensures Open[0] == '<' && Open[1] == 'i' && Close[0] == '<' && Close[1] == '/'
    ensures forall i :: 1 <= i < |Open| ==> Open[i] != '<'
    ensures forall i :: 1 <= i < |Close| ==> Close[i] != '<'
  {
  }

  /** Inside a tag, a `<` after the first character always opens the closing
      `</integer>`, so it is followed by `/` and never by `i`. */
  lemma LessThanInsideTag(t: string, k: nat, j: nat)
    requires StartsWith(t, Tag(k)) && 0 < j < |Tag(k)| && t[j] == '<'
    ensures j + 1 < |Tag(k)| && t[j + 1] == '/'
  {
    OpenCloseShape();
    var d := NatToString(k);
    var tag := Tag(k);
    assert t[j] == tag[j];
    assert j == |Open| + |d| by {
      if j < |Open| + |d| {
      } else {
        assert tag[j] == Close[j - |Open| - |d|];
      }
    }
    assert t[j + 1] == tag[j + 1];
    assert tag[j + 1] == Close[1];
  }

  /** Length of the run of digits at the front of `t`. */
  function DigitRun(t: string): (n: nat)
    ensures n <= |t| && AllDigits(t[..n])
    ensures n < |t| ==> !IsDigit(t[n])
  {
    if |t| == 0 || !IsDigit(t[0]) then 0
    else
      var n := 1 + DigitRun(t[1..]);
      assert t[..n] == [t[0]] + t[1..][..n - 1];
      n
  }

  /** The key code of the tag `t` begins with, if it begins with one: the
      opening tag, a numeral as Swift renders it, and the closing tag. */
  function TagAt(t: string): (r: Option<nat>)
    ensures r.Some? ==> StartsWith(t, Tag(r.value))
  {
    if !StartsWith(t, Open) then None
    else
      var n := DigitRun(t[|Open|..]);
      var digits := t[|Open|..|Open| + n];
      assert digits == t[|Open|..][..n];
      if StartsWith(t[|Open| + n..], Close) && NatToString(DigitsValue(digits)) == digits then
        var k := DigitsValue(digits);
        assert t[..|Tag(k)|] == Tag(k) by {
          assert t[..|Open|] == Open;
          assert t[|Open| + n..][..|Close|] == Close;
        }
        Some(k)
      else None
  }

  /** A text that begins with the tag of `k` is recognised as such. */
  lemma TagAtOfTag(t: string, k: nat)
    requires StartsWith(t, Tag(k))
    ensures TagAt(t) == Some(k)
  {
    var d := NatToString(k);
    TagPieces(t, k);
    var rest := t[|Open|..];
    assert rest[..|d|] == d;
    var n := DigitRun(rest);
    DigitRunOfNumeral(rest, d);
    assert t[|Open|..|Open| + n] == d;
    ValueOfNatToString(k);
  }

  /** A text that begins with a tag begins with `<integer>`, the numeral,
      and `</integer>`, in that order. */
  lemma TagPieces(t: string, k: nat)
    requires StartsWith(t, Tag(k))
    ensures var d := NatToString(k);
      && StartsWith(t, Open)
      && |Open| + |d| < |t|
      && t[|Open|..|Open| + |d|] == d
      && t[|Open| + |d|] == Close[0]
      && StartsWith(t[|Open| + |d|..], Close)
  {
    var d := NatToString(k);
    var tag := Tag(k);
    var i := |Open| + |d|;
    assert t[..|tag|] == tag;
    assert tag[..|Open|] == Open;
    assert tag[|Open|..i] == d;
    assert tag[i..] == Close;
    assert t[..|Open|] == t[..|tag|][..|Open|];
    assert t[|Open|..i] == t[..|tag|][|Open|..i];
    assert t[i..][..|Close|] == t[..|tag|][i..];
    assert t[i] == tag[i] == Close[0];
  }

  /** The digit run at the front of a numeral followed by `<` is the
      numeral. */
  lemma DigitRunOfNumeral(rest: string, d: string)
    requires AllDigits(d) && |d| < |rest| && rest[..|d|] == d && rest[|d|] == '<'
    ensures DigitRun(rest) == |d|
    decreases |d|
  {
    if |d| > 0 {
      assert IsDigit(rest[0]) by {
        assert rest[0] == d[0];
      }
      DigitRunOfNumeral(rest[1..], d[1..]);
    }
  }

  /** Tags of distinct key codes are distinct. */
  lemma TagInjective(a: nat, b: nat)
    ensures Tag(a) == Tag(b) ==> a == b
  {
    if Tag(a) == Tag(b) {
      TagAtOfTag(Tag(a), a);
      TagAtOfTag(Tag(b), b);
    }
  }

  /** No `<integer>` starts strictly inside a tag. */
  lemma NoOpenInsideTag(t: string, k: nat, j: nat)
    requires StartsWith(t, Tag(k)) && 0 < j < |Tag(k)|
    ensures !StartsWith(t[j..], Open)
  {
    OpenCloseShape();
    if StartsWith(t[j..], Open) {
      assert t[j] == '<' && t[j + 1] == 'i' by {
        assert t[j..][0] == t[j] && t[j..][1] == t[j + 1];
      }
      LessThanInsideTag(t, k, j);
    }
  }

  /** No tag starts strictly inside another tag. */
  lemma NoTagInsideTag(t: string, k: nat, i: nat)
    requires StartsWith(t, Tag(k)) && 0 < i < |Tag(k)|
    ensures TagAt(t[i..]) == None
  {
    NoOpenInsideTag(t, k, i);
  }

  /** The tag of `c` occurs in the tag of `k` only when `c == k`. */
  lemma TagOccursInTag(k: nat, c: nat)
    ensures Contains(Tag(k), Tag(c)) <==> c == k
  {
    if c == k {
      assert OccursAt(Tag(k), Tag(c), 0);
    } else if Contains(Tag(k), Tag(c)) {
      var i: nat :| OccursAt(Tag(k), Tag(c), i);
      var t := Tag(k);
      assert StartsWith(t[i..], Tag(c)) by {
        assert t[i..][..|Tag(c)|] == t[i..i + |Tag(c)|];
      }
      TagAtOfTag(t[i..], c);
      if i == 0 {
        assert t[0..] == t;
        TagAtOfTag(t, k);
      } else {
        assert StartsWith(t, Tag(k));
        NoTagInsideTag(t, k, i);
      }
    }
  }

  /** The text starts with the tag of a key code of `m`. */
  predicate KeyAt(t: string, m: map<nat, nat>)
  {
    TagAt(t).Some? && TagAt(t).value in m
  }

  /** Simultaneous substitution: the text is scanned once from left to right;
      each tag whose key code is in `m` is replaced by the tag of its image
      and the scan resumes after it, so no field is rewritten twice. */
  function Remap(s: string, m: map<nat, nat>): string
    decreases |s|
  {
    if |s| == 0 then []
    else if KeyAt(s, m) then
      var k := TagAt(s).value;
      Tag(m[k]) + Remap(s[|Tag(k)|..], m)
    else [s[0]] + Remap(s[1..], m)
  }

  /** Text up to the first tag of a key code of `m` is copied as it is. */
  lemma {:induction false} RemapPlainPrefix(u: string, m: map<nat, nat>, n: nat)
    requires n <= |u|
    requires forall j :: 0 <= j < n ==> !KeyAt(u[j..], m)
    ensures Remap(u, m) == u[..n] + Remap(u[n..], m)
    decreases n
  {
    if n > 0 {
      RemapPlainPrefix(u, m, n - 1);
      var v := u[n - 1..];
      assert !KeyAt(v, m);
      RemapPlainStep(v, m);
      assert v[1..] == u[n..];
      assert u[..n - 1] + [v[0]] == u[..n];
      AppendAssoc(u[..n - 1], [v[0]], Remap(u[n..], m));
    }
  }

  /** One step of `Remap` over a character that starts no key tag. */
  lemma RemapPlainStep(v: string, m: map<nat, nat>)
    requires |v| > 0 && !KeyAt(v, m)
    ensures Remap(v, m) == [v[0]] + Remap(v[1..], m)
  {
  }

  /** A text holding no tag of a key code of `m` is left unchanged. */
  lemma RemapUntouched(s: string, m: map<nat, nat>)
    requires forall j :: 0 <= j < |s| ==> !KeyAt(s[j..], m)
    ensures Remap(s, m) == s
  {
    RemapPlainPrefix(s, m, |s|);
    assert s[|s|..] == [];
  }

  /** A text without `<integer>` is left unchanged, whatever the table. */
  lemma RemapWithoutOpen(s: string, m: map<nat, nat>)
    ensures !Contains(s, Open) ==> Remap(s, m) == s
  {
    if !Contains(s, Open) {
      forall j | 0 <= j < |s|
        ensures !KeyAt(s[j..], m)
      {
        if KeyAt(s[j..], m) {
          assert s[j..][..|Open|] == s[j..j + |Open|];
          assert OccursAt(s, Open, j);
        }
      }
      RemapUntouched(s, m);
    }
  }

  /** A tag of a key code of `m` at the front is replaced by the tag of its
      image, and the rest of the text is remapped on its own. */
  lemma RemapTagThen(k: nat, rest: string, m: map<nat, nat>)
    requires k in m
    ensures Remap(Tag(k) + rest, m) == Tag(m[k]) + Remap(rest, m)
  {
    var s := Tag(k) + rest;
    assert StartsWith(s, Tag(k));
    TagAtOfTag(s, k);
    assert s[|Tag(k)|..] == rest;
  }

  /** A single field: mapped through `m` when its key code is in `m`, kept
      otherwise. */
  lemma RemapTag(k: nat, m: map<nat, nat>)
    ensures Remap(Tag(k), m) == if k in m then Tag(m[k]) else Tag(k)
  {
    var t := Tag(k);
    if k in m {
      RemapTagThen(k, [], m);
      assert t + [] == t;
    } else {
      assert StartsWith(t, t);
      TagAtOfTag(t, k);
      forall j | 0 <= j < |t|
        ensures !KeyAt(t[j..], m)
      {
        if j > 0 {
          NoTagInsideTag(t, k, j);
        }
      }
      RemapUntouched(t, m);
    }
  }

  /** The first index below `bound` where a tag of `m` starts, or `bound`. */
  function FirstKeyAt(u: string, m: map<nat, nat>, i: nat, bound: nat): (j: nat)
    requires i <= bound <= |u|
    requires forall p :: 0 <= p < i ==> !KeyAt(u[p..], m)
    ensures i <= j <= bound
    ensures forall p :: 0 <= p < j ==> !KeyAt(u[p..], m)
    ensures j < bound ==> KeyAt(u[j..], m)
    decreases bound - i
  {
    if i == bound || KeyAt(u[i..], m) then i else FirstKeyAt(u, m, i + 1, bound)
  }

  /** `m'` undoes `m`, and has no key code `m` lacks. */
  ghost predicate IsInverse(m: map<nat, nat>, m': map<nat, nat>)
  {
    && (forall k :: k in m ==> m[k] in m' && m'[m[k]] == k)
    && (forall k :: k in m' ==> k in m)
  }

  /** Remapping text that starts with a tag of `m` yields text that starts
      with `<integer>`. */
  lemma RemapStartsWithOpen(v: string, m: map<nat, nat>)
    requires KeyAt(v, m)
    ensures StartsWith(Remap(v, m), Open)
  {
    var k := TagAt(v).value;
    assert Remap(v, m) == Tag(m[k]) + Remap(v[|Tag(k)|..], m);
  }

  /** Remapping copies the text up to the first tag of `m`; if that tag
      comes before `bound`, what follows the copy starts with `<integer>`. */
  lemma RemapSplit(u: string, m: map<nat, nat>, bound: nat) returns (n: nat, v: string)
    requires bound <= |u|
    ensures n <= bound && Remap(u, m) == u[..n] + v
    ensures n < bound ==> StartsWith(v, Open)
    ensures n == bound ==> v == Remap(u[bound..], m)
  {
    n := FirstKeyAt(u, m, 0, bound);
    RemapPlainPrefix(u, m, n);
    v := Remap(u[n..], m);
    if n < bound {
      RemapStartsWithOpen(u[n..], m);
    }
  }

  /** Text whose `<integer>` starts strictly inside the span a tag would
      cover does not start with that tag. */
  lemma OpenAfterPrefixBlocksTag(t: string, head: string, v: string, k: nat)
    requires t == head + v && StartsWith(v, Open) && 0 < |head| < |Tag(k)|
    ensures !StartsWith(t, Tag(k))
  {
    assert t[|head|..] == v;
    if StartsWith(t, Tag(k)) {
      NoOpenInsideTag(t, k, |head|);
    }
  }

  /** A character that does not open a tag of `m` cannot open a tag of `m'`
      once the text after it has been remapped: remapping only writes whole
      tags, which begin with `<i`, where a tag could hold `<` only before `/`. */
  lemma PlainStaysPlain(s: string, m: map<nat, nat>, m': map<nat, nat>)
    requires |s| > 0 && !KeyAt(s, m)
    requires forall k :: k in m' ==> k in m
    ensures !KeyAt([s[0]] + Remap(s[1..], m), m')
  {
    var t := [s[0]] + Remap(s[1..], m);
    if KeyAt(t, m') {
      NoTagAfterPlain(s, m, TagAt(t).value);
    }
  }

  /** The same, for one key code of `m`. */
  lemma NoTagAfterPlain(s: string, m: map<nat, nat>, k: nat)
    requires |s| > 0 && !KeyAt(s, m) && k in m
    ensures !StartsWith([s[0]] + Remap(s[1..], m), Tag(k))
  {
    var L := |Tag(k)|;
    var u := s[1..];
    var bound := if |u| < L - 1 then |u| else L - 1;
    var n, v := RemapSplit(u, m, bound);
    if StartsWith(s, Tag(k)) {
      TagAtOfTag(s, k);
    }
    if n == bound && |u| < L - 1 {
      assert u[bound..] == [];
    }
    NoTagAfterCopy(s, Remap(u, m), n, v, k);
  }

  /** The string core of `NoTagAfterPlain`: `s` does not start with the tag
      of `k`, and its tail is copied up to `n` and then followed either by
      `<integer>` (before the tag would end) or by nothing more (at the end
      of `s`), or the copy covers the whole span of the tag. */
  lemma NoTagAfterCopy(s: string, r: string, n: nat, v: string, k: nat)
    requires |s| > 0 && !StartsWith(s, Tag(k))
    requires n <= |s| - 1 && r == s[1..][..n] + v
    requires n < |s| - 1 && n < |Tag(k)| - 1 ==> StartsWith(v, Open)
    requires n == |s| - 1 && n < |Tag(k)| - 1 ==> v == []
    ensures !StartsWith([s[0]] + r, Tag(k))
  {
    var L := |Tag(k)|;
    var head := [s[0]] + s[1..][..n];
    var t := head + v;
    assert [s[0]] + r == t;
    if n < |s| - 1 && n < L - 1 {
      OpenAfterPrefixBlocksTag(t, head, v, k);
    } else if n == |s| - 1 && n < L - 1 {
      assert t == s;
    } else {
      assert t[..L] == s[..L];
    }
  }

  /** Remapping through `m` and then through its inverse gives back the
      original text, byte for byte. */
  lemma {:induction false} RemapRoundTrip(s: string, m: map<nat, nat>, m': map<nat, nat>)
    requires IsInverse(m, m')
    ensures Remap(Remap(s, m), m') == s
    decreases |s|
  {
    if |s| == 0 {
    } else if KeyAt(s, m) {
      var k := TagAt(s).value;
      RemapRoundTrip(s[|Tag(k)|..], m, m');
      RoundTripAtTag(s, m, m', k);
    } else {
      RemapRoundTrip(s[1..], m, m');
      RoundTripAtPlain(s, m, m');
    }
  }

  /** The inductive step of the round trip at a tag of `m`. */
  lemma RoundTripAtTag(s: string, m: map<nat, nat>, m': map<nat, nat>, k: nat)
    requires IsInverse(m, m') && KeyAt(s, m) && k == TagAt(s).value
    requires Remap(Remap(s[|Tag(k)|..], m), m') == s[|Tag(k)|..]
    ensures Remap(Remap(s, m), m') == s
  {
    var rest := s[|Tag(k)|..];
    var j := m[k];
    RemapKeyStep(s, m);
    assert j in m' && m'[j] == k;
    RemapTagThen(j, Remap(rest, m), m');
    SplitAtTag(s, k);
  }

  /** One step of `Remap` over a tag of `m`. */
  lemma RemapKeyStep(s: string, m: map<nat, nat>)
    requires KeyAt(s, m)
    ensures Remap(s, m) == Tag(m[TagAt(s).value]) + Remap(s[|Tag(TagAt(s).value)|..], m)
  {
  }

  /** A text that starts with a tag is that tag followed by the rest. */
  lemma SplitAtTag(s: string, k: nat)
    requires StartsWith(s, Tag(k))
    ensures s == Tag(k) + s[|Tag(k)|..]
  {
    assert s[..|Tag(k)|] == Tag(k);
  }

  /** The inductive step of the round trip at a character that starts no
      tag of `m`. */
  lemma RoundTripAtPlain(s: string, m: map<nat, nat>, m': map<nat, nat>)
    requires IsInverse(m, m') && |s| > 0 && !KeyAt(s, m)
    requires Remap(Remap(s[1..], m), m') == s[1..]
    ensures Remap(Remap(s, m), m') == s
  {
    var t := [s[0]] + Remap(s[1..], m);
    RemapPlainStep(s, m);
    PlainStaysPlain(s, m, m');
    RemapPlainStep(t, m');
    assert t[1..] == Remap(s[1..], m);
    assert [s[0]] + s[1..] == s;
  }

  /** For a table of one entry the simultaneous substitution is the source's
      `replacingOccurrences` of that entry's field: the corrected conversion
      and the code as written part only through one replacement feeding the
      next. */
  lemma {:induction false} RemapSingleIsReplaceAll(s: string, a: nat, b: nat)
    ensures Remap(s, map[a := b]) == ReplaceAll(s, Tag(a), Tag(b))
    decreases |s|
  {
    var m := map[a := b];
    var pat := Tag(a);
    if |s| > 0 {
      if KeyAt(s, m) {
        assert TagAt(s) == Some(a);
        assert s[..|pat|] == pat;
        RemapKeyStep(s, m);
        RemapSingleIsReplaceAll(s[|pat|..], a, b);
      } else {
        if StartsWith(s, pat) {
          TagAtOfTag(s, a);
          assert false;
        }
        RemapPlainStep(s, m);
        RemapSingleIsReplaceAll(s[1..], a, b);
        if |s| < |pat| {
          assert [s[0]] + s[1..] == s;
        } else {
          ReplaceAllPlainStep(s, pat, Tag(b));
        }
      }
    }
  }
}

=== FILE: layout.dfy ===
/** The `layout` command: key-code tables for the three keyboard layouts,
    the rewriting of `<integer>` fields, and the argument checks of `run`. */
module Layout {
  import opened Wrappers
  import opened Strings
  import opened IntegerTags

  /** The `Layouts` enum; `RawValue` is its Swift raw value. */
  datatype Layouts = QWERTY | AZERTY | QWERTZ

  function RawValue(l: Layouts): string
  {
    match l
    case QWERTY => "QWERTY"
    case AZERTY => "AZERTY"
    case QWERTZ => "QWERTZ"
  }

  /** `Layouts(rawValue:)`, which is how a command-line argument is read. */
  function ParseLayout(s: string): (r: Option<Layouts>)
    ensures r.Some? ==> RawValue(r.value) == s
    ensures r.None? ==> forall l :: RawValue(l) != s
  {
    if s == "QWERTY" then Some(QWERTY)
    else if s == "AZERTY" then Some(AZERTY)
    else if s == "QWERTZ" then Some(QWERTZ)
    else None
  }

  /** Every layout survives a round trip through its raw value, and no two
      layouts share one. */
  lemma ParseRawValue(l: Layouts)
    ensures ParseLayout(RawValue(l)) == Some(l)
    ensures forall l' :: RawValue(l') == RawValue(l) ==> l' == l
  {
  }

  /** `layoutMappings`: from QWERTY key codes to the target layout's. */
  const LayoutMappings: map<Layouts, map<nat, nat>> := map[
    QWERTY := map[],
    AZERTY := map[24 := 0, 23 := 11, 0 := 24, 11 := 23, 41 := 41],
    QWERTZ := map[28 := 44, 44 := 28]
  ]

  /** `reverseMappings`: from a layout's key codes back to QWERTY. */
  const ReverseMappings: map<Layouts, map<nat, nat>> := map[
    AZERTY := map[0 := 24, 11 := 23, 24 := 0, 23 := 11, 41 := 41],
    QWERTZ := map[44 := 28, 28 := 44]
  ]

  /** `tables[l] ?? [:]` */
  function Lookup(tables: map<Layouts, map<nat, nat>>, l: Layouts): map<nat, nat>
  {
    if l in tables then tables[l] else map[]
  }

  /** The table `modifyLayout` folds over when the layouts differ. */
  function SelectTable(from: Layouts, to: Layouts): map<nat, nat>
  {
    if to == QWERTY then Lookup(ReverseMappings, from) else Lookup(LayoutMappings, to)
  }

  /** Converting back to QWERTY uses the source layout's reverse table; any
      other target uses the target's forward table, whatever the source. */
  lemma SelectTableChoice(from: Layouts, to: Layouts)
    ensures to == QWERTY && from != QWERTY ==> SelectTable(from, to) == ReverseMappings[from]
    ensures to == QWERTY && from == QWERTY ==> SelectTable(from, to) == map[]
    ensures to != QWERTY ==> forall other :: SelectTable(other, to) == LayoutMappings[to]
  {
  }

  /** Example of the above: AZERTY to QWERTZ only swaps 28 and 44. */
  lemma AzertyToQwertzUsesQwertzTable()
    ensures SelectTable(AZERTY, QWERTZ) == map[28 := 44, 44 := 28]
  {
  }

  /** For AZERTY and QWERTZ the forward and reverse tables hold the same
      pairs, and 41 is a fixed point of the AZERTY tables. */
  lemma TablesCoincide()
    ensures LayoutMappings[AZERTY] == ReverseMappings[AZERTY]
    ensures LayoutMappings[QWERTZ] == ReverseMappings[QWERTZ]
    ensures LayoutMappings[AZERTY][41] == 41 && ReverseMappings[AZERTY][41] == 41
  {
  }

  /** Every table is its own inverse: `m[m[k]] == k` for every key. */
  lemma SelectedTableIsInvolution(from: Layouts, to: Layouts)
    ensures IsInverse(SelectTable(from, to), SelectTable(from, to))
  {
    var m := SelectTable(from, to);
    if m == LayoutMappings[AZERTY] {
      AzertyIsInvolution();
    } else if m == LayoutMappings[QWERTZ] {
      QwertzIsInvolution();
    } else {
      assert m == map[];
    }
  }

  lemma AzertyIsInvolution()
    ensures IsInverse(LayoutMappings[AZERTY], LayoutMappings[AZERTY])
  {
    var m := LayoutMappings[AZERTY];
    assert m.Keys == {24, 23, 0, 11, 41};
  }

  lemma QwertzIsInvolution()
    ensures IsInverse(LayoutMappings[QWERTZ], LayoutMappings[QWERTZ])
  {
    var m := LayoutMappings[QWERTZ];
    assert m.Keys == {28, 44};
  }

  /** Converting a table through `from -> to` and then `to -> from` uses
      tables that undo each other. */
  lemma SelectedTablesInverse(l: Layouts)
    ensures IsInverse(SelectTable(QWERTY, l), SelectTable(l, QWERTY))
    ensures IsInverse(SelectTable(l, QWERTY), SelectTable(QWERTY, l))
  {
    TablesCoincide();
    assert SelectTable(QWERTY, l) == SelectTable(l, QWERTY);
    SelectedTableIsInvolution(QWERTY, l);
  }

  // ---------------------------------------------------------------------
  // modifyLayout as written: a fold of replace-all over the table entries

  /** `order` lists the entries of `m`, each exactly once, in some order:
      the unspecified iteration order of a Swift dictionary. */
  predicate IsVisitingOrder(order: seq<(nat, nat)>, m: map<nat, nat>)
  {
    && (forall i :: 0 <= i < |order| ==> order[i].0 in m && m[order[i].0] == order[i].1)
    && (forall k :: k in m ==> (k, m[k]) in order)
    && DistinctKeys(order)
  }

  predicate DistinctKeys(order: seq<(nat, nat)>)
  {
    forall i, j :: 0 <= i < j < |order| ==> order[i].0 != order[j].0
  }

  /** Putting an entry in front of a visiting order of the rest of the
      table gives a visiting order of the table. */
  lemma ConsVisitingOrder(k: nat, m: map<nat, nat>, tail: seq<(nat, nat)>)
    requires k in m && IsVisitingOrder(tail, m - {k})
    ensures IsVisitingOrder([(k, m[k])] + tail, m)
  {
    var rest := m - {k};
    var order := [(k, m[k])] + tail;
    forall i | 0 <= i < |tail|
      ensures tail[i].0 != k && tail[i].0 in m && m[tail[i].0] == tail[i].1
    {
      assert tail[i].0 in rest;
    }
    forall k' | k' in m
      ensures (k', m[k']) in order
    {
      if k' != k {
        assert k' in rest;
        assert (k', rest[k']) in tail;
      }
    }
  }

  /** Every table can be visited: some order lists exactly its entries. */
  lemma {:induction false} VisitingOrderExists(m: map<nat, nat>)
    ensures exists order :: IsVisitingOrder(order, m)
    decreases |m|
  {
    if |m| == 0 {
      assert IsVisitingOrder([], m);
    } else {
      var k :| k in m;
      var rest := m - {k};
      assert |rest| < |m| by {
        assert rest.Keys == m.Keys - {k};
      }
      VisitingOrderExists(rest);
      var tail: seq<(nat, nat)> :| IsVisitingOrder(tail, rest);
      ConsVisitingOrder(k, m, tail);
    }
  }

  /** `for (original, replacement) in mappings { content = content
      .replacingOccurrences(of: tag(original), with: tag(replacement)) }` */
  function ReplaceInOrder(content: string, order: seq<(nat, nat)>): string
    decreases |order|
  {
    if |order| == 0 then content
    else ReplaceInOrder(ReplaceAll(content, Tag(order[0].0), Tag(order[0].1)), order[1..])
  }

  /** `modifyLayout` exactly as the source writes it, for one iteration
      order of the selected table. */
  function ModifyLayoutAsWritten(content: string, from: Layouts, to: Layouts, order: seq<(nat, nat)>): (r: string)
    requires from != to ==> IsVisitingOrder(order, SelectTable(from, to))
    ensures !Contains(content, Open) ==> r == content
  {
    if from == to then content
    else
      ReplaceInOrderWithoutOpen(content, order);
      ReplaceInOrder(content, order)
  }

  /** The fold really is a left fold: visiting `p` and then `q` is visiting
      `p` and then visiting `q` on its result. */
  lemma {:induction false} ReplaceInOrderAppend(content: string, p: seq<(nat, nat)>, q: seq<(nat, nat)>)
    ensures ReplaceInOrder(content, p + q) == ReplaceInOrder(ReplaceInOrder(content, p), q)
    decreases |p|
  {
    if |p| > 0 {
      assert (p + q)[1..] == p[1..] + q;
      ReplaceInOrderAppend(ReplaceAll(content, Tag(p[0].0), Tag(p[0].1)), p[1..], q);
    } else {
      assert p + q == q;
    }
  }

  /** Every pattern starts with `<integer>`, so text without it passes
      through the whole fold untouched. */
  lemma {:induction false} ReplaceInOrderWithoutOpen(content: string, order: seq<(nat, nat)>)
    ensures !Contains(content, Open) ==> ReplaceInOrder(content, order) == content
    decreases |order|
  {
    if |order| > 0 && !Contains(content, Open) {
      var pat := Tag(order[0].0);
      assert !Contains(content, pat) by {
        if Contains(content, pat) {
          var i: nat :| OccursAt(content, pat, i);
          assert content[i..i + |Open|] == pat[..|Open|] == Open;
          assert OccursAt(content, Open, i);
        }
      }
      ReplaceAllAbsent(content, pat, Tag(order[0].1));
      ReplaceInOrderWithoutOpen(content, order[1..]);
    }
  }

  /** One field through one replace-all: it changes only when it is the
      pattern itself. */
  lemma ReplaceAllOnTag(y: nat, c: nat, d: nat)
    ensures ReplaceAll(Tag(y), Tag(c), Tag(d)) == if y == c then Tag(d) else Tag(y)
  {
    if y == c {
      assert Tag(y)[..|Tag(c)|] == Tag(c);
      assert Tag(y)[|Tag(c)|..] == [];
      assert Tag(d) + [] == Tag(d);
    } else {
      TagOccursInTag(y, c);
      ReplaceAllAbsent(Tag(y), Tag(c), Tag(d));
    }
  }

  /** The key code a single field ends up with after the fold: each entry in
      turn maps it when it is that entry's key. */
  function ChainValue(y: nat, order: seq<(nat, nat)>): nat
    decreases |order|
  {
    if |order| == 0 then y
    else ChainValue(if y == order[0].0 then order[0].1 else y, order[1..])
  }

  /** On a lone field the fold amounts to following `ChainValue`. */
  lemma {:induction false} ReplaceInOrderOnTag(y: nat, order: seq<(nat, nat)>)
    ensures ReplaceInOrder(Tag(y), order) == Tag(ChainValue(y, order))
    decreases |order|
  {
    if |order| > 0 {
      ReplaceAllOnTag(y, order[0].0, order[0].1);
      ReplaceInOrderOnTag(if y == order[0].0 then order[0].1 else y, order[1..]);
    }
  }

  /** Once the fold has passed the first of the entries `a -> b` and `b -> a`,
      the fields for `a` and for `b` hold the same key code, and stay equal. */
  lemma {:induction false} SwappedPairCollapses(order: seq<(nat, nat)>, a: nat, b: nat)
    requires DistinctKeys(order)
    requires (a, b) in order && (b, a) in order
    ensures ChainValue(a, order) == ChainValue(b, order)
    decreases |order|
  {
    if order[0] == (a, b) || order[0] == (b, a) {
    } else {
      var ia :| 0 <= ia < |order| && order[ia] == (a, b);
      var ib :| 0 <= ib < |order| && order[ib] == (b, a);
      assert ia > 0 && ib > 0;
      assert order[0].0 != a && order[0].0 != b;
      assert order[1..][ia - 1] == (a, b);
      assert order[1..][ib - 1] == (b, a);
      SwappedPairCollapses(order[1..], a, b);
    }
  }

  /** The source's fold never swaps: for every iteration order, whenever
      the selected table maps `k` to a different key code, the field for `k`
      and the field for its image come out identical, so one of them is
      wrong. */
  lemma AsWrittenMergesSwappedFields(from: Layouts, to: Layouts, order: seq<(nat, nat)>, k: nat)
    requires from != to && IsVisitingOrder(order, SelectTable(from, to))
    requires k in SelectTable(from, to) && SelectTable(from, to)[k] != k
    ensures ModifyLayoutAsWritten(Tag(k), from, to, order)
         == ModifyLayoutAsWritten(Tag(SelectTable(from, to)[k]), from, to, order)
  {
    var m := SelectTable(from, to);
    var v := m[k];
    SelectedTableIsInvolution(from, to);
    assert (k, v) in order && (v, m[v]) in order;
    SwappedPairCollapses(order, k, v);
    ReplaceInOrderOnTag(k, order);
    ReplaceInOrderOnTag(v, order);
  }

  /** The corrected `ModifyLayout` swaps the two fields instead: the field
      for `k` and the field for its image stay distinct. */
  lemma CorrectedKeepsSwappedFieldsApart(from: Layouts, to: Layouts, k: nat)
    requires from != to
    requires k in SelectTable(from, to) && SelectTable(from, to)[k] != k
    ensures ModifyLayout(Tag(k), from, to) == Tag(SelectTable(from, to)[k])
    ensures ModifyLayout(Tag(SelectTable(from, to)[k]), from, to) == Tag(k)
  {
    var m := SelectTable(from, to);
    SelectedTableIsInvolution(from, to);
    RemapTag(k, m);
    RemapTag(m[k], m);
  }

  /** Concrete instance: QWERTY to AZERTY turns `24` and `0` into the same
      field, in every iteration order. */
  lemma AsWrittenAzertyExample(order: seq<(nat, nat)>)
    requires IsVisitingOrder(order, SelectTable(QWERTY, AZERTY))
    ensures ModifyLayoutAsWritten(Tag(24), QWERTY, AZERTY, order)
         == ModifyLayoutAsWritten(Tag(0), QWERTY, AZERTY, order)
  {
    AzertySwapsZeroAndTwentyFour(QWERTY);
    AsWrittenMergesSwappedFields(QWERTY, AZERTY, order, 24);
  }

  /** Converting to AZERTY, from any layout, exchanges key codes 24 and 0. */
  lemma AzertySwapsZeroAndTwentyFour(from: Layouts)
    ensures 24 in SelectTable(from, AZERTY) && SelectTable(from, AZERTY)[24] == 0
  {
    assert SelectTable(from, AZERTY) == LayoutMappings[AZERTY];
  }

  /** Both orders of the QWERTZ table are visiting orders. */
  lemma QwertzVisitingOrders()
    ensures IsVisitingOrder([(28, 44), (44, 28)], SelectTable(QWERTY, QWERTZ))
    ensures IsVisitingOrder([(44, 28), (28, 44)], SelectTable(QWERTY, QWERTZ))
  {
    assert SelectTable(QWERTY, QWERTZ).Keys == {28, 44};
  }

  /** The iteration order decides the result: visiting `28 -> 44` first
      gives `28` back, visiting `44 -> 28` first gives `44`. */
  lemma AsWrittenOrderMatters()
    ensures IsVisitingOrder([(28, 44), (44, 28)], SelectTable(QWERTY, QWERTZ))
         && ModifyLayoutAsWritten(Tag(28), QWERTY, QWERTZ, [(28, 44), (44, 28)]) == Tag(28)
    ensures IsVisitingOrder([(44, 28), (28, 44)], SelectTable(QWERTY, QWERTZ))
         && ModifyLayoutAsWritten(Tag(28), QWERTY, QWERTZ, [(44, 28), (28, 44)]) == Tag(44)
  {
    QwertzVisitingOrders();
    ReplaceInOrderOnTag(28, [(28, 44), (44, 28)]);
    ReplaceInOrderOnTag(28, [(44, 28), (28, 44)]);
  }

  // ---------------------------------------------------------------------
  // modifyLayout corrected: one simultaneous substitution

  /** `modifyLayout` with the replacement made simultaneous: equal layouts
      pass the content through, otherwise every field whose key code is in
      the selected table is rewritten exactly once. */
  function ModifyLayout(content: string, from: Layouts, to: Layouts): (r: string)
    ensures from == to ==> r == content
    ensures !Contains(content, Open) ==> r == content
  {
    if from == to then content
    else
      RemapWithoutOpen(content, SelectTable(from, to));
      Remap(content, SelectTable(from, to))
  }

  /** Equal layouts leave the content unchanged, in both versions and for
      every iteration order. */
  lemma SameLayoutIsIdentity(content: string, l: Layouts, order: seq<(nat, nat)>)
    ensures ModifyLayoutAsWritten(content, l, l, order) == content
    ensures ModifyLayout(content, l, l) == content
  {
  }

  /** A lone field is rewritten through the selected table exactly once. */
  lemma ModifyLayoutOnField(k: nat, from: Layouts, to: Layouts)
    requires from != to
    ensures k in SelectTable(from, to) ==> ModifyLayout(Tag(k), from, to) == Tag(SelectTable(from, to)[k])
    ensures k !in SelectTable(from, to) ==> ModifyLayout(Tag(k), from, to) == Tag(k)
  {
    RemapTag(k, SelectTable(from, to));
  }

  /** Converting from QWERTY to a layout and back, or from a layout to
      QWERTY and back, restores the file byte for byte. */
  lemma ModifyLayoutRoundTrip(content: string, l: Layouts)
    ensures ModifyLayout(ModifyLayout(content, QWERTY, l), l, QWERTY) == content
    ensures ModifyLayout(ModifyLayout(content, l, QWERTY), QWERTY, l) == content
  {
    if l != QWERTY {
      SelectedTablesInverse(l);
      RemapRoundTrip(content, SelectTable(QWERTY, l), SelectTable(l, QWERTY));
      RemapRoundTrip(content, SelectTable(l, QWERTY), SelectTable(QWERTY, l));
    }
  }

  /** Q and W fields of a QWERTY file become the AZERTY A and Z fields. */
  lemma QwertyToAzertyExample()
    ensures ModifyLayout(Tag(24) + Tag(23), QWERTY, AZERTY) == Tag(0) + Tag(11)
  {
    var m := SelectTable(QWERTY, AZERTY);
    RemapTagThen(24, Tag(23), m);
    RemapTag(23, m);
  }

  // ---------------------------------------------------------------------
  // Layout.run

  const Extension: string := ".playmap"

  /** What the command does: refuse with a message, or write `content` to
      `outputFile` and print `message`. */
  datatype LayoutOutcome =
    | Rejected(message: string)
    | Saved(outputFile: string, content: string, message: string)

  const InputExtensionMessage: string := "The input file must have a .playmap extension."
  const OutputExtensionMessage: string := "The output file must have a .playmap extension."
  const ReadFailedMessage: string := "Failed to read input file."

  /** The body of `Layout.run` with the rewriting of the content as a
      parameter: both paths must end in `.playmap` before the input file is
      read through `readFile`; the converted content goes to the output
      path. */
  function RunWith(inputFile: string, outputFile: string, from: Layouts, to: Layouts,
                   readFile: string -> Option<string>, convert: string -> string): (r: LayoutOutcome)
    ensures r.Saved? <==>
      EndsWith(inputFile, Extension) && EndsWith(outputFile, Extension) && readFile(inputFile).Some?
    ensures r.Saved? ==>
      r.outputFile == outputFile && r.content == convert(readFile(inputFile).value)
    ensures r.Saved? ==>
      r.message == "Layout changed from " + RawValue(from) + " to " + RawValue(to) + " and saved to " + outputFile
    ensures !EndsWith(inputFile, Extension) ==> r == Rejected(InputExtensionMessage)
    ensures EndsWith(inputFile, Extension) && !EndsWith(outputFile, Extension) ==>
      r == Rejected(OutputExtensionMessage)
    ensures EndsWith(inputFile, Extension) && EndsWith(outputFile, Extension) && readFile(inputFile).None? ==>
      r == Rejected(ReadFailedMessage)
  {
    if !EndsWith(inputFile, Extension) then
      Rejected(InputExtensionMessage)
    else if !EndsWith(outputFile, Extension) then
      Rejected(OutputExtensionMessage)
    else
      match readFile(inputFile)
      case None => Rejected(ReadFailedMessage)
      case Some(content) =>
        Saved(outputFile, convert(content),
              "Layout changed from " + RawValue(from) + " to " + RawValue(to) + " and saved to " + outputFile)
  }

  /** `Layout.run` with the corrected `ModifyLayout`: what is saved is the
      input with every listed field swapped exactly once. */
  function Run(inputFile: string, outputFile: string, from: Layouts, to: Layouts,
               readFile: string -> Option<string>): (r: LayoutOutcome)
    ensures r.Saved? <==>
      EndsWith(inputFile, Extension) && EndsWith(outputFile, Extension) && readFile(inputFile).Some?
    ensures r.Saved? ==>
      r.outputFile == outputFile && r.content == ModifyLayout(readFile(inputFile).value, from, to)
    ensures !EndsWith(inputFile, Extension) ==> r == Rejected(InputExtensionMessage)
    ensures EndsWith(inputFile, Extension) && !EndsWith(outputFile, Extension) ==>
      r == Rejected(OutputExtensionMessage)
    ensures EndsWith(inputFile, Extension) && EndsWith(outputFile, Extension) && readFile(inputFile).None? ==>
      r == Rejected(ReadFailedMessage)
  {
    RunWith(inputFile, outputFile, from, to, readFile, c => ModifyLayout(c, from, to))
  }

  /** `Layout.run` exactly as the source writes it: the saved content is the
      order-dependent fold, for one iteration order of the selected table. */
  function RunAsWritten(inputFile: string, outputFile: string, from: Layouts, to: Layouts,
                        order: seq<(nat, nat)>, readFile: string -> Option<string>): (r: LayoutOutcome)
    requires from != to ==> IsVisitingOrder(order, SelectTable(from, to))
    ensures r.Saved? <==>
      EndsWith(inputFile, Extension) && EndsWith(outputFile, Extension) && readFile(inputFile).Some?
    ensures r.Saved? ==>
      r.outputFile == outputFile && r.content == ModifyLayoutAsWritten(readFile(inputFile).value, from, to, order)
    ensures !EndsWith(inputFile, Extension) ==> r == Rejected(InputExtensionMessage)
    ensures EndsWith(inputFile, Extension) && !EndsWith(outputFile, Extension) ==>
      r == Rejected(OutputExtensionMessage)
    ensures EndsWith(inputFile, Extension) && EndsWith(outputFile, Extension) && readFile(inputFile).None? ==>
      r == Rejected(ReadFailedMessage)
  {
    RunWith(inputFile, outputFile, from, to, readFile, c => ModifyLayoutAsWritten(c, from, to, order))
  }

  /** The two runs save different files: converting a QWERTY file holding
      only the Q field to AZERTY, with the table visited in its written order,
      the source saves the Q field unchanged while the corrected run saves
      the A field. */
  lemma RunsDisagreeOnAzerty(inputFile: string, outputFile: string)
    requires EndsWith(inputFile, Extension) && EndsWith(outputFile, Extension)
    ensures IsVisitingOrder(AzertyWrittenOrder, SelectTable(QWERTY, AZERTY))
    ensures var read := (p: string) => Some(Tag(24));
      && RunAsWritten(inputFile, outputFile, QWERTY, AZERTY, AzertyWrittenOrder, read).content == Tag(24)
      && Run(inputFile, outputFile, QWERTY, AZERTY, read).content == Tag(0)
  {
    AzertyWrittenOrderVisits();
    AsWrittenKeepsQ();
    AzertySwapsZeroAndTwentyFour(QWERTY);
    RemapTag(24, SelectTable(QWERTY, AZERTY));
  }

  lemma AzertyWrittenOrderVisits()
    ensures IsVisitingOrder(AzertyWrittenOrder, SelectTable(QWERTY, AZERTY))
  {
    assert SelectTable(QWERTY, AZERTY).Keys == {24, 23, 0, 11, 41};
  }

  /** In the written order the Q field is sent to 0 and straight back. */
  lemma AsWrittenKeepsQ()
    ensures ReplaceInOrder(Tag(24), AzertyWrittenOrder) == Tag(24)
  {
    var o := AzertyWrittenOrder;
    ReplaceInOrderOnTag(24, o);
    assert ChainValue(24, o[4..]) == 24;
    assert ChainValue(24, o[3..]) == ChainValue(24, o[4..]);
    assert ChainValue(0, o[2..]) == ChainValue(24, o[3..]);
    assert ChainValue(0, o[1..]) == ChainValue(0, o[2..]);
    assert ChainValue(24, o) == ChainValue(0, o[1..]);
  }

  /** The AZERTY table's entries in the order the source lists them. */
  const AzertyWrittenOrder: seq<(nat, nat)> := [(24, 0), (23, 11), (0, 24), (11, 23), (41, 41)]

  /** A path without the extension is refused before any file is read:
      the outcome is a refusal and does not depend on the file system. */
  lemma RunValidatesBeforeReading(inputFile: string, outputFile: string, from: Layouts, to: Layouts,
                                  fs1: string -> Option<string>, fs2: string -> Option<string>)
    requires !EndsWith(inputFile, Extension) || !EndsWith(outputFile, Extension)
    ensures Run(inputFile, outputFile, from, to, fs1).Rejected?
    ensures Run(inputFile, outputFile, from, to, fs1) == Run(inputFile, outputFile, from, to, fs2)
  {
  }
}

=== FILE: strings.dfy ===
/** Foundation string operations the tool relies on, over `seq<char>`. */
module Strings {

  /** `s.hasPrefix(p)` */
  predicate StartsWith(s: string, p: string)
  {
    |p| <= |s| && s[..|p|] == p
  }

  /** `s.hasSuffix(p)` */
  predicate EndsWith(s: string, p: string)
  {
    |p| <= |s| && s[|s| - |p|..] == p
  }

  /** `p` occurs in `s` starting at index `i`. */
  predicate OccursAt(s: string, p: string, i: nat)
  {
    i + |p| <= |s| && s[i..i + |p|] == p
  }

  /** `p` is a substring of `s`. */
  ghost predicate Contains(s: string, p: string)
  {
    exists i: nat :: OccursAt(s, p, i)
  }

  /** `s.replacingOccurrences(of: pat, with: rep)`: occurrences of `pat` are
      found from left to right, never overlapping, and each is replaced by
      `rep`; the replacement text is not searched again. An empty pattern
      leaves the string as it is. */
  function ReplaceAll(s: string, pat: string, rep: string): string
    decreases |s|
  {
    if |pat| == 0 || |s| < |pat| then s
    else if s[..|pat|] == pat then rep + ReplaceAll(s[|pat|..], pat, rep)
    else [s[0]] + ReplaceAll(s[1..], pat, rep)
  }

  /** An occurrence in a suffix is an occurrence in the whole string. */
  lemma OccursInTail(s: string, pat: string, i: nat)
    requires |s| > 0 && OccursAt(s[1..], pat, i)
    ensures OccursAt(s, pat, i + 1)
  {
    assert s[1..][i..i + |pat|] == s[i + 1..i + 1 + |pat|];
  }

  /** A string in which the pattern never occurs is returned unchanged. */
  lemma {:induction false} ReplaceAllAbsent(s: string, pat: string, rep: string)
    requires !Contains(s, pat)
    ensures ReplaceAll(s, pat, rep) == s
    decreases |s|
  {
    assert !OccursAt(s, pat, 0);
    if |pat| == 0 || |s| < |pat| {
    } else {
      assert !Contains(s[1..], pat) by {
        if Contains(s[1..], pat) {
          var i: nat :| OccursAt(s[1..], pat, i);
          OccursInTail(s, pat, i);
        }
      }
      ReplaceAllAbsent(s[1..], pat, rep);
      assert [s[0]] + s[1..] == s;
    }
  }

  /** Replacing a pattern by itself changes nothing. */
  lemma {:induction false} ReplaceAllSelf(s: string, pat: string)
    ensures ReplaceAll(s, pat, pat) == s
    decreases |s|
  {
    if |pat| == 0 || |s| < |pat| {
    } else if s[..|pat|] == pat {
      ReplaceAllSelf(s[|pat|..], pat);
      assert pat + s[|pat|..] == s;
    } else {
      ReplaceAllSelf(s[1..], pat);
      assert [s[0]] + s[1..] == s;
    }
  }

  /** Characters before the first occurrence are copied unchanged. */
  lemma {:induction false} ReplaceAllPlainPrefix(s: string, pat: string, rep: string, n: nat)
    requires |pat| > 0 && n <= |s|
    requires forall i: nat :: i < n ==> !OccursAt(s, pat, i)
    ensures ReplaceAll(s, pat, rep) == s[..n] + ReplaceAll(s[n..], pat, rep)
    decreases n
  {
    if n > 0 {
      ReplaceAllPlainPrefix(s, pat, rep, n - 1);
      var v := s[n - 1..];
      assert !OccursAt(v, pat, 0) by {
        assert !OccursAt(s, pat, n - 1);
        if |pat| <= |v| {
          assert v[..|pat|] == s[n - 1..n - 1 + |pat|];
        }
      }
      ReplaceAllPlainStep(v, pat, rep);
      assert v[1..] == s[n..];
      assert s[..n - 1] + [v[0]] == s[..n];
      AppendAssoc(s[..n - 1], [v[0]], ReplaceAll(s[n..], pat, rep));
    }
  }

  /** One step of `ReplaceAll` over a character where no occurrence starts. */
  lemma ReplaceAllPlainStep(v: string, pat: string, rep: string)
    requires |pat| > 0 && |v| > 0 && !OccursAt(v, pat, 0)
    ensures ReplaceAll(v, pat, rep) == [v[0]] + ReplaceAll(v[1..], pat, rep)
  {
    if |v| < |pat| {
      assert [v[0]] + v[1..] == v;
    }
  }

  lemma AppendAssoc<T>(a: seq<T>, b: seq<T>, c: seq<T>)
    ensures a + (b + c) == (a + b) + c
  {
  }

  /** The leftmost occurrence is the one replaced, and the search resumes
      right after it: with `ReplaceAllAbsent` this pins `ReplaceAll` down. */
  lemma ReplaceAllLeftmost(x: string, pat: string, y: string, rep: string)
    requires |pat| > 0
    requires forall i: nat :: i < |x| ==> !OccursAt(x + pat + y, pat, i)
    ensures ReplaceAll(x + pat + y, pat, rep) == x + rep + ReplaceAll(y, pat, rep)
  {
    var s := x + pat + y;
    ReplaceAllPlainPrefix(s, pat, rep, |x|);
    assert s[..|x|] == x;
    assert s[|x|..] == pat + y;
    assert (pat + y)[..|pat|] == pat;
    assert (pat + y)[|pat|..] == y;
  }

  /** ASCII lower-casing of one character. */
  function AsciiLowerChar(c: char): char
  {
    if 'A' <= c <= 'Z' then (c as int - 'A' as int + 'a' as int) as char else c
  }

  /** `s.lowercased()`, restricted to the ASCII letters. */
  function AsciiLower(s: string): (r: string)
    ensures |r| == |s|
    ensures forall i :: 0 <= i < |s| ==> r[i] == AsciiLowerChar(s[i])
    ensures forall i :: 0 <= i < |r| ==> !('A' <= r[i] <= 'Z')
  {
    if |s| == 0 then [] else [AsciiLowerChar(s[0])] + AsciiLower(s[1..])
  }
}

=== FILE: wrappers.dfy ===
/** Wrappers used across the model: `Option` for Swift
    optionals and `Result` for operations that throw a `ValidationError`. */
module Wrappers {

  /** A Swift optional: `None` is `nil`. */
  datatype Option<+T> = None | Some(value: T)

  /** A value or the message of the error that was thrown instead. */
  datatype Result<+R, +E> = Success(value: R) | Failure(error: E)
}
